=== FILE: README.md ===
# SmartAttendBLE face-scan bridge and sign-in form, in Dafny

This project models the part of the SmartAttendBLE Android app that signs a
student in and runs the Face.io face scans:

- the two web views (`FaceIoAuthWebView` for authentication,
  `StudentFaceRegistrationWebView` for enrolment). Each web view has:
  - a native JavaScript interface with a one-shot success flag;
  - an embedded page script with its own flags (`safeCallback`, the start
    guard, retry after an error, ignoring results after a success);
  - the error-message tables and the roll-number fallback;
  - the camera-permission rule;
- `LoginScreen`: its two validators, the "already registered my face"
  toggle, Clear Form, the enabling rules, and how registration callbacks
  change it;
- `FaceRegistrationScreen`: which pane it shows, the permission callbacks,
  `handleFaceRegistered` and `handleRegistrationError`;
- `ProfileViewModel`: save, normalisation (trim, upper-cased class), reset,
  and the two validity predicates.

Modules:

- `Optional` is the nullable value.
- `Text` covers `isBlank`, `trim` and `uppercase` over ASCII.
- `Decimal` is the integer-to-string rendering the fallback message uses.
- `Bridge` is the native interface objects.
- `Permission` is `onPermissionRequest`.
- `Scan` is the shared page script.
- `EnrollPage` and `AuthPage` hold what differs between the two pages.
- `Session` is one web view: page, interface and host.
- `Profile` is the view model.
- `Login` and `RegistrationScreen` are the two screens.

Modelling choices:

- Each `setTimeout` is an entry in a list of pending timers that may fire in
  any order. An SDK promise is a request that settles exactly once.
- `Handler.post` appends to an ordered outbox.
- A view-model coroutine is cut at its one repository call into a `Begin…`
  half and a `Finish…` half. The repository's outcome is a parameter: it
  returned, or it threw with a message.
- A click on a hidden or disabled button does nothing.
- A script call reaches a native method only when the interface has a
  method of that name taking as many parameters as the call passes
  arguments. This is how the WebView's Java bridge binds calls; a call it
  cannot bind throws in the script, where `safeCallback` catches and logs
  it (`Session.Binds`).

How the success guarantee is split:

- The native flag alone gives at most one success closure for ANY sequence
  of calls (`Bridge.Delivery`).
- The page script, with its buttons gated as the page gates them, makes at
  most one success call by itself (`Scan.ScriptAtMostOnce`). So on a real
  mount the native flag never has to drop anything
  (`Session.HostGetsAtMostOneSuccess`).
- `safeCallback` checks its flag when it schedules a delivery but sets the
  flag only when the delivery runs. Two deliveries scheduled back to back
  would both be made. This happens only on a page the script's own flow
  never reaches (`Scan.LateFlagAdmitsDuplicate`).

Two things the code does that a reader might not expect:

- After a success, the interfaces still forward `onError` and `onClose`.
  Only the success method is deduplicated. The enrolment page's own cancel,
  however, never reaches `onClose` (see "## Findings").
- In `FaceRegistrationScreen`, `isProcessingRegistration` is raised and
  lowered within one synchronous call. It is therefore false in every state
  the screen can be in. The processing pane is never shown and the
  duplicate check in `handleFaceRegistered` never fires: every face id that
  reaches the screen is forwarded (`RegistrationScreen.ProcessingNeverObserved`).

One more behaviour the model makes visible: sign-in's length checks look
at the untrimmed inputs, while the view model saves trimmed values. A padded
roll number can pass the 4-character check and still be saved shorter
(`Login.LengthCheckedBeforeTrim`). This is recorded as behaviour, not as a
defect, because nothing in the code says which length was meant.

Source paths in the table are relative to the repository root.

## Model

| member | source | states |
|---|---|---|
| Bridge.Receive | app/src/main/java/com/humblecoders/smartattendance/presentation/components/StudentFaceRegistrationWebView.kt:96-146 | one call keeps the interface kind, sets the flag exactly when it was set or the call is a success, and posts at most one closure |
| Bridge.Delivery | app/src/main/java/com/humblecoders/smartattendance/presentation/components/StudentFaceRegistrationWebView.kt:96-140 | over any call sequence the posted success closures are exactly the first success call's value, or none once the flag was set; error and close closures are posted in order, as with no flag at all; the flag ends set iff it was set or some success call arrived |
| Bridge.AtMostOneSuccess | app/src/main/java/com/humblecoders/smartattendance/presentation/components/FaceIoAuthWebView.kt:94-115 | from a fresh interface at most one success closure is posted, and one is posted exactly when some success call arrives |
| Bridge.FiredIsFinal | app/src/main/java/com/humblecoders/smartattendance/presentation/components/FaceIoAuthWebView.kt:97-105 | once the flag is set it stays set and no success closure is posted again |
| Bridge.RunAppend | app/src/main/java/com/humblecoders/smartattendance/presentation/components/StudentFaceRegistrationWebView.kt:96-146 | running two call sequences one after the other equals running their concatenation |
| Bridge.LogIsInert | app/src/main/java/com/humblecoders/smartattendance/presentation/components/StudentFaceRegistrationWebView.kt:143-145 | inserting a `log` call anywhere changes neither the flag nor what is posted |
| Bridge.GuardTransparent | app/src/main/java/com/humblecoders/smartattendance/presentation/components/StudentFaceRegistrationWebView.kt:99-116 | with the flag clear and at most one success call, the interface posts exactly what an unguarded one would |
| Permission.Grant | app/src/main/java/com/humblecoders/smartattendance/presentation/components/StudentFaceRegistrationWebView.kt:43-54 | a null request grants nothing; the granted set is a subset of the requested one; a camera request is answered with the camera alone; any other request is granted as asked |
| Scan.SafeCallback | app/src/main/java/com/humblecoders/smartattendance/presentation/components/StudentFaceRegistrationWebView.kt:292-321 | only the pending timers change and the ones already pending stay first; one delivery is added unless the call is a success and the flag is set; the count of pending success deliveries grows by one exactly for a success call made before the flag is set |
| Scan.Start | app/src/main/java/com/humblecoders/smartattendance/presentation/components/StudentFaceRegistrationWebView.kt:354-370 | no contract; stated by Scan.StartIsOneShot |
| Scan.CallSdk | app/src/main/java/com/humblecoders/smartattendance/presentation/components/StudentFaceRegistrationWebView.kt:372-385 | no contract; stated by Scan.IgnoredAfterSuccess and the budget invariant of Scan.StepPreserves |
| Scan.RunTimer | app/src/main/java/com/humblecoders/smartattendance/presentation/components/StudentFaceRegistrationWebView.kt:299-320 | no contract; stated by Scan.StepPreserves and Scan.LateFlagAdmitsDuplicate |
| Scan.OnResolved | app/src/main/java/com/humblecoders/smartattendance/presentation/components/StudentFaceRegistrationWebView.kt:396-414 | no contract; stated by Scan.SuccessDisablesStart and Scan.IgnoredAfterSuccess |
| Scan.OnRejected | app/src/main/java/com/humblecoders/smartattendance/presentation/components/StudentFaceRegistrationWebView.kt:416-433 | no contract; stated by Scan.RetryReArms and Scan.IgnoredAfterSuccess |
| Scan.StartStaysDisabled | app/src/main/java/com/humblecoders/smartattendance/presentation/components/StudentFaceRegistrationWebView.kt:354-434 | nothing the script does sets `disabled` back to false (line 410 is its only write): once the start button is disabled it stays disabled over any event sequence |
| Scan.StepPreserves | app/src/main/java/com/humblecoders/smartattendance/presentation/components/StudentFaceRegistrationWebView.kt:328-434 | every event keeps the script's invariant, never clears its flag, and makes at most one success call, only when it is the one that sets the flag |
| Scan.ScriptAtMostOnce | app/src/main/java/com/humblecoders/smartattendance/presentation/components/FaceIoAuthWebView.kt:237-370 | over any event sequence from a consistent page the script makes at most one success call, and none once its flag is set |
| Scan.StartIsOneShot | app/src/main/java/com/humblecoders/smartattendance/presentation/components/StudentFaceRegistrationWebView.kt:355-371 | a click on the armed start button starts one scan and hides the buttons; a second click does nothing |
| Scan.RetryReArms | app/src/main/java/com/humblecoders/smartattendance/presentation/components/StudentFaceRegistrationWebView.kt:416-434 | a rejection before any success clears the busy flag, re-arms start (and cancel on the enrolment page), shows the message and schedules an error call with it |
| Scan.SuccessDisablesStart | app/src/main/java/com/humblecoders/smartattendance/presentation/components/StudentFaceRegistrationWebView.kt:397-415 | a resolution before any success disables start (for good, by Scan.StartStaysDisabled) and schedules exactly one success delivery carrying the value |
| Scan.IgnoredAfterSuccess | app/src/main/java/com/humblecoders/smartattendance/presentation/components/FaceIoAuthWebView.kt:311-357 | once the flag is set, results, clicks and the deferred SDK call do nothing apart from settling the promise |
| Scan.LateFlagAdmitsDuplicate | app/src/main/java/com/humblecoders/smartattendance/presentation/components/FaceIoAuthWebView.kt:237-266 | two success deliveries scheduled before either runs are both made; such a page breaks the script's invariant; the native flag passes on only the first |
| EnrollPage.ErrorMessage | app/src/main/java/com/humblecoders/smartattendance/presentation/components/StudentFaceRegistrationWebView.kt:437-464 | codes 1 to 21 get their table message; every other code gets the fallback that spells the code out |
| EnrollPage.FallbackNotInTable | app/src/main/java/com/humblecoders/smartattendance/presentation/components/StudentFaceRegistrationWebView.kt:463 | no fallback message equals a table message |
| EnrollPage.ErrorMessageRoundTrip | app/src/main/java/com/humblecoders/smartattendance/presentation/components/StudentFaceRegistrationWebView.kt:437-464 | the code can be read back from every code's message, so distinct codes never share a message |
| Decimal.IntRoundTrip | app/src/main/java/com/humblecoders/smartattendance/presentation/components/StudentFaceRegistrationWebView.kt:463 | the decimal rendering of an integer code parses back to the code |
| AuthPage.Case | app/src/main/java/com/humblecoders/smartattendance/presentation/components/FaceIoAuthWebView.kt:379-423 | each of the twenty named error constants selects its own case; the network constant and unlisted values fall to the default |
| AuthPage.ErrorMessage | app/src/main/java/com/humblecoders/smartattendance/presentation/components/FaceIoAuthWebView.kt:372-424 | no contract; stated by AuthPage.Case and AuthPage.ErrorMessageRoundTrip |
| AuthPage.ErrorMessageRoundTrip | app/src/main/java/com/humblecoders/smartattendance/presentation/components/FaceIoAuthWebView.kt:372-424 | the message identifies the named error; the network message is produced exactly by the network constant and unlisted values |
| AuthPage.RollNumber | app/src/main/java/com/humblecoders/smartattendance/presentation/components/FaceIoAuthWebView.kt:336 | no contract; stated by AuthPage.UnknownIsAmbiguous |
| AuthPage.UnknownIsAmbiguous | app/src/main/java/com/humblecoders/smartattendance/presentation/components/FaceIoAuthWebView.kt:336 | a result without a payload reports the same roll number as a payload whose roll number is the literal `Unknown`; apart from that, distinct results report distinct roll numbers |
| Session.HostGetsAtMostOneSuccess | app/src/main/java/com/humblecoders/smartattendance/presentation/components/FaceIoAuthWebView.kt:88-134 | on one mount the host receives at most one success closure, and exactly the closures asked for by the page's calls that bind to a native method, whichever way the cancel calls `onClose` |
| Session.Binds | app/src/main/java/com/humblecoders/smartattendance/presentation/components/StudentFaceRegistrationWebView.kt:299-318 | no contract; stated by Session.CancelNeverReachesHost, Session.CancelScenario and Session.IntendedCancelScenario |
| Session.CancelNeverReachesHost | app/src/main/java/com/humblecoders/smartattendance/presentation/components/StudentFaceRegistrationWebView.kt:292-326 | as written, no sequence of page events ever posts a close closure to the host, because the page passes `onClose` an argument it does not take |
| Session.RejectionScenario | app/src/main/java/com/humblecoders/smartattendance/presentation/components/FaceIoAuthWebView.kt:351-369 | after one scan, a rejection's message reaches the host's error closure and the start button is armed again |
| AuthPage.NoFacesMessage | app/src/main/java/com/humblecoders/smartattendance/presentation/components/FaceIoAuthWebView.kt:382-383 | the "no faces" constant is reported with its fixed message |
| Session.CancelScenario | app/src/main/java/com/humblecoders/smartattendance/presentation/components/StudentFaceRegistrationWebView.kt:323-326 | as written, cancelling the enrolment page runs its delivery and the host receives nothing |
| Session.IntendedCancelScenario | app/src/main/java/com/humblecoders/smartattendance/presentation/components/StudentFaceRegistrationWebView.kt:130-139 | a cancel that calls `onClose()` without arguments reaches the host's close closure once |
| Text.Trim | app/src/main/java/com/humblecoders/smartattendance/presentation/viewmodel/ProfileViewModel.kt:131-133 | the trimmed string is empty exactly for a blank input, and otherwise starts and ends with a non-whitespace character |
| Text.TrimDropsPadding | app/src/main/java/com/humblecoders/smartattendance/presentation/viewmodel/ProfileViewModel.kt:131-132 | trimming removes exactly the blank padding around a string that has no whitespace at either end |
| Text.TrimUpperStable | app/src/main/java/com/humblecoders/smartattendance/presentation/viewmodel/ProfileViewModel.kt:133 | a trimmed, upper-cased class is unchanged by trimming and upper-casing again, and is blank exactly when the input was |
| Profile.IsFormValid | app/src/main/java/com/humblecoders/smartattendance/presentation/viewmodel/ProfileViewModel.kt:189-193 | no contract; stated by Profile.SaveWithClassBracket, Profile.ResetEmptiesEverything and Profile.BeginSave |
| Profile.IsProfileSaved | app/src/main/java/com/humblecoders/smartattendance/presentation/viewmodel/ProfileViewModel.kt:42-43 | no contract; stated by Profile.SaveWithClassBracket and Profile.ResetEmptiesEverything |
| Profile.UpdateNameInput | app/src/main/java/com/humblecoders/smartattendance/presentation/viewmodel/ProfileViewModel.kt:75-77 | the input takes the given value and nothing else in the view model changes |
| Profile.UpdateRollNumberInput | app/src/main/java/com/humblecoders/smartattendance/presentation/viewmodel/ProfileViewModel.kt:79-81 | the input takes the given value and nothing else in the view model changes |
| Profile.UpdateClassNameInput | app/src/main/java/com/humblecoders/smartattendance/presentation/viewmodel/ProfileViewModel.kt:83-85 | the input takes the given value and nothing else in the view model changes |
| Profile.Normalize | app/src/main/java/com/humblecoders/smartattendance/presentation/viewmodel/ProfileViewModel.kt:130-134 | the normalised profile is complete exactly when the three arguments are |
| Profile.NormalizeIdempotent | app/src/main/java/com/humblecoders/smartattendance/presentation/viewmodel/ProfileViewModel.kt:130-139 | normalising the saved values again gives the same profile |
| Profile.InitializeFormInputs | app/src/main/java/com/humblecoders/smartattendance/presentation/viewmodel/ProfileViewModel.kt:62-73 | the inputs become the first emitted profile's fields, so the form is valid exactly when that profile is complete; the form is marked initialised and the rest of the view model is untouched |
| Profile.FormStartsEmpty | app/src/main/java/com/humblecoders/smartattendance/presentation/viewmodel/ProfileViewModel.kt:16-73 | initialised from the flow's initial `ProfileData()`, the form is empty and invalid, whether or not the stored profile is complete |
| Profile.BeginSaveWithClass | app/src/main/java/com/humblecoders/smartattendance/presentation/viewmodel/ProfileViewModel.kt:115-134 | refused with "Please fill in all fields" exactly when an argument is blank, leaving everything unchanged; otherwise only `isSaving` is raised and a complete profile is sent |
| Profile.FinishSaveWithClass | app/src/main/java/com/humblecoders/smartattendance/presentation/viewmodel/ProfileViewModel.kt:135-148 | `isSaving` drops and the initialisation mark is kept; on success the inputs and the stored profile become the sent values; on failure the error names the message and the inputs are untouched |
| Profile.BeginSave | app/src/main/java/com/humblecoders/smartattendance/presentation/viewmodel/ProfileViewModel.kt:87-100 | refused exactly when the form is not valid, and in every case the same as `saveProfileWithClass` given the current inputs |
| Profile.FinishSave | app/src/main/java/com/humblecoders/smartattendance/presentation/viewmodel/ProfileViewModel.kt:101-109 | `isSaving` drops and the inputs are never written back; success stores the sent profile; failure keeps the stored one |
| Profile.ResetCompleteProfile | app/src/main/java/com/humblecoders/smartattendance/presentation/viewmodel/ProfileViewModel.kt:155-176 | success empties the inputs and the stored profile; failure reports "Failed to reset profile: " and the message and changes nothing; `isSaving` and the initialisation mark are kept either way |
| Profile.SaveWithClassBracket | app/src/main/java/com/humblecoders/smartattendance/presentation/viewmodel/ProfileViewModel.kt:115-150 | `isSaving` is up exactly while the repository call runs; after success the form is valid, the profile counts as saved, and the inputs are the normalised arguments |
| Profile.ResetEmptiesEverything | app/src/main/java/com/humblecoders/smartattendance/presentation/viewmodel/ProfileViewModel.kt:155-193 | after a successful reset neither validity predicate holds and saving the form is refused |
| Login.SignInError | app/src/main/java/com/humblecoders/smartattendance/presentation/screens/LoginScreen.kt:415-440 | sign-in passes exactly when all six checks do; each message is reported exactly when its check is the first to fail |
| Login.RegisterError | app/src/main/java/com/humblecoders/smartattendance/presentation/screens/LoginScreen.kt:362-380 | the Register Face pre-check passes exactly when name and roll number are non-blank and the roll number has 4 or more characters; each message is reported exactly when its check is the first to fail |
| Login.InputsEnabled | app/src/main/java/com/humblecoders/smartattendance/presentation/screens/LoginScreen.kt:466 | no contract; stated by Login.OneSaveAtATime (the same `!isSaving && !showSuccess` gate is on the fields and buttons at lines 253, 271, 291, 344 and 524) |
| Login.RegisterFaceEnabled | app/src/main/java/com/humblecoders/smartattendance/presentation/screens/LoginScreen.kt:355-385 | no contract; stated by Login.RegistrationUnlocksSignIn |
| Login.OnToggle | app/src/main/java/com/humblecoders/smartattendance/presentation/screens/LoginScreen.kt:335-343 | turning the toggle on also clears completion, face id and error; turning it off changes only the toggle |
| Login.OnRegisterFace | app/src/main/java/com/humblecoders/smartattendance/presentation/screens/LoginScreen.kt:358-380 | the registration screen opens exactly when the pre-check passes; the error becomes the pre-check's verdict; nothing else changes |
| Login.OnSignIn | app/src/main/java/com/humblecoders/smartattendance/presentation/screens/LoginScreen.kt:411-459 | a failing check sets only its message; a passing one clears the error and starts the view model's save of the normalised values, which is never refused; no other screen field changes |
| Login.OnSaveFinished | app/src/main/java/com/humblecoders/smartattendance/presentation/screens/LoginScreen.kt:448-457 | the save is no longer in flight; success shows success and stores the sent profile; failure shows the view model's message and leaves the view model as it was apart from `isSaving`; no other screen field changes |
| Login.OnRegistration | app/src/main/java/com/humblecoders/smartattendance/presentation/screens/LoginScreen.kt:69-89 | each of the three registration callbacks hides the registration screen; success records the face id, sets completion and clears toggle and error; failure prefixes the error |
| Login.OnClearForm | app/src/main/java/com/humblecoders/smartattendance/presentation/screens/LoginScreen.kt:511-519 | name, roll and class become empty and completion, face id, toggle and error are reset; nothing else on the screen or in the view model changes |
| Login.OneSaveAtATime | app/src/main/java/com/humblecoders/smartattendance/presentation/screens/LoginScreen.kt:466 | over any event sequence a save is in flight exactly while the view model is saving; success is never withdrawn; after a finished successful save the form is frozen |
| Login.SignInThenSaved | app/src/main/java/com/humblecoders/smartattendance/presentation/screens/LoginScreen.kt:441-459 | a passing sign-in whose save succeeds shows success, disables the form, and leaves the normalised values in the view model |
| Login.RegistrationUnlocksSignIn | app/src/main/java/com/humblecoders/smartattendance/presentation/screens/LoginScreen.kt:72-79 | after a registration success the face check passes, Register Face is disabled and the face id is kept |
| Login.ClearThenSignIn | app/src/main/java/com/humblecoders/smartattendance/presentation/screens/LoginScreen.kt:511-519 | Sign In right after Clear Form reports the missing name and starts no save |
| Login.LengthCheckedBeforeTrim | app/src/main/java/com/humblecoders/smartattendance/presentation/screens/LoginScreen.kt:427-430 | the length checks see the untrimmed input: a two-character roll number padded with two leading spaces passes every check and is saved with two characters |
| RegistrationScreen.PaneOf | app/src/main/java/com/humblecoders/smartattendance/presentation/screens/FaceRegistrationScreen.kt:141-194 | no contract; stated by RegistrationScreen.PanePriority |
| RegistrationScreen.PanePriority | app/src/main/java/com/humblecoders/smartattendance/presentation/screens/FaceRegistrationScreen.kt:141-194 | each pane is shown exactly when its condition holds and no earlier one does; the success pane falls back to "Registration successful!" |
| RegistrationScreen.BackEnabled | app/src/main/java/com/humblecoders/smartattendance/presentation/screens/FaceRegistrationScreen.kt:121 | no contract; stated by RegistrationScreen.ProcessingNeverObserved |
| RegistrationScreen.OnPermissionGranted | app/src/main/java/com/humblecoders/smartattendance/presentation/screens/FaceRegistrationScreen.kt:68-72 | the permission is recorded and a denial cleared; nothing else changes |
| RegistrationScreen.OnPermissionDenied | app/src/main/java/com/humblecoders/smartattendance/presentation/screens/FaceRegistrationScreen.kt:73-76 | only the denial is recorded, and the permission-denied pane shows |
| RegistrationScreen.OnRetry | app/src/main/java/com/humblecoders/smartattendance/presentation/screens/FaceRegistrationScreen.kt:145-148 | retry clears the denial and nothing else |
| RegistrationScreen.HandleFaceRegistered | app/src/main/java/com/humblecoders/smartattendance/presentation/screens/FaceRegistrationScreen.kt:80-96 | while processing nothing changes or is forwarded; otherwise the face id is forwarded once, the screen completes with its success message, and processing ends lowered |
| RegistrationScreen.HandleRegistrationError | app/src/main/java/com/humblecoders/smartattendance/presentation/screens/FaceRegistrationScreen.kt:99-103 | the error is shown and forwarded unchanged; nothing else changes |
| RegistrationScreen.ProcessingNeverObserved | app/src/main/java/com/humblecoders/smartattendance/presentation/screens/FaceRegistrationScreen.kt:80-96 | over any event sequence processing is never left raised, the processing pane never shows, back stays enabled, and every delivered face id is forwarded |
| RegistrationScreen.DuplicatesForwarded | app/src/main/java/com/humblecoders/smartattendance/presentation/screens/FaceRegistrationScreen.kt:80-96 | two face ids arriving one after the other are both forwarded |

## Left out

- Logging (`Timber`, the page's `log` and console output), colours,
  captions, icons, keyboard handling and the status box's text and styling.
  Only the status kind and the start-button caption are kept.
- Real delays. The 2 s start-up delay is the page's initialisation event.
  The 500 ms SDK delay and the callback deliveries (500 ms for an enrolment
  success, 200 ms for an authentication success and for either page's
  error, the 100 ms default for the initialisation error and the cancel)
  are pending timers that may fire in any order. The
  screens' auto-hide and auto-navigate delays are plain events.
- The Face.io SDK and the network. Construction failure, resolution and
  rejection are events. The page is not checked against what the SDK
  really does.
- JavaScript exceptions thrown inside the native methods or the posted
  closures. The closures catch and log them. A script-side exception after
  the native call would leave the page's flag unset, and it is not modelled.
- `onPermissionRequest`: only the grant rule is modelled, not what the
  WebView does with the answer. Camera permission at the OS level is an
  event: granted or denied.
- EnrollPage.ErrorMessage: the fallback spells every integer code in plain
  decimal. JavaScript holds codes above 2^53 only approximately and writes
  codes of 10^21 or more in exponent notation (`1e+21`); such codes are not
  modelled as JavaScript renders them.
- Non-integer error codes on the enrolment page. A JavaScript object
  lookup with a string key, or a fractional number, is not modelled; codes
  are integers.
- Text.IsBlank and Text.Trim: ASCII whitespace only. Kotlin also treats
  Unicode spaces as whitespace.
- Text.Upper: ASCII letters only. Kotlin's `uppercase` is locale-independent
  Unicode.
- Login.SignInError: name and roll-number lengths are counted in
  characters here. Kotlin counts UTF-16 code units.
- Login.RegisterError: the roll-number length is likewise counted in
  characters, not UTF-16 code units; a roll number of two characters outside
  the Basic Multilingual Plane passes Kotlin's `length < 4` check but is
  reported as too short here.
- `getProfileSummary` and the view model's logging collector. They only
  log.
- `isProfileSaved`'s initial `false` before the repository's first
  emission, and the flow's subscription timeout.
- `ProfileData()`'s field defaults: `data/model/ProfileData.kt` is not part
  of this model, and the three fields are taken to default to empty strings.
- `ProfileRepository`, the DataStore behind it, and BLE (`BleViewModel`).
  The repository is taken to store what it is given and to clear on reset.
- A null exception message. Kotlin renders it as `null` inside the error
  string; the model takes any string as the message.
- Navigation after sign-in (`onLoginSuccess` after the success delay) and
  the rest of the app's navigation.
- Recomposition. A screen's local state is taken to survive as long as the
  screen is composed.

## Findings

| source | as written | input that shows it | evidently intended | confidence | as-written member | corrected member |
|---|---|---|---|---|---|---|
| app/src/main/java/com/humblecoders/smartattendance/presentation/components/StudentFaceRegistrationWebView.kt:323-326 | `closeRegistration` calls `safeCallback('onClose', 'user_closed')`, which calls `onClose` with one argument, while the interface's `onClose()` (line 131) takes none; the bridge finds no method and the script's `catch` only logs | load the enrolment page, press Cancel, let the delivery run: the host's close closure never runs | the cancel reaches `onCloseCallback` and the screen navigates back | medium: rests on the WebView bridge binding by name and argument count; not executed | Session.CancelScenario | Session.IntendedCancelScenario |

=== FILE: auth_page.dfy ===
/**
 * What is specific to the authentication page: the roll number is read from
 * the result's payload with a literal "Unknown" when there is none, and
 * `handleError` switches over the SDK's named error constants, the network
 * message doubling as the default.
 */
module AuthPage {
  import opened Optional
  import Bridge
  import Scan

  /** The `fioErrCode` constants the switch names, and `Unlisted` for any
      rejection value equal to none of them. The constants' values are not
      part of the page, so they are kept abstract (and distinct). */
  datatype FioError =
    | PermissionRefused | NoFacesDetected | UnrecognizedFace | ManyFaces
    | FaceDuplication | MinorsNotAllowed | PadAttack | FaceMismatch
    | WrongPinCode | ProcessingErr | Unauthorized | TermsNotAccepted
    | UiNotReady | SessionExpired | Timeout | TooManyRequests
    | EmptyOrigin | ForbiddenOrigin | ForbiddenCountry | SessionInProgress
    | NetworkIo | Unlisted

  const NetworkMessage: string :=
    "Error while establishing network connection with the target FACEIO processing node"

  /** The named cases of `handleError`'s switch, in order... */
  const Named: seq<FioError> := [
    PermissionRefused,
    NoFacesDetected,
    UnrecognizedFace,
    ManyFaces,
    FaceDuplication,
    MinorsNotAllowed,
    PadAttack,
    FaceMismatch,
    WrongPinCode,
    ProcessingErr,
    Unauthorized,
    TermsNotAccepted,
    UiNotReady,
    SessionExpired,
    Timeout,
    TooManyRequests,
    EmptyOrigin,
    ForbiddenOrigin,
    ForbiddenCountry,
    SessionInProgress
  ]

  /** ... and the message each of them returns. */
  const NamedMessages: seq<string> := [
    "Access to the Camera stream was denied by the end user",
    "No faces were detected during the enroll or authentication process",
    "Unrecognized face on this application's Facial Index",
    "Two or more faces were detected during the scan process",
    "User enrolled previously (facial features already recorded). Cannot enroll again!",
    "Minors are not allowed to enroll on this application!",
    "Presentation (Spoof) Attack (PAD) detected during the scan process",
    "Calculated Facial Vectors of the user being enrolled do not matches",
    "Wrong PIN code supplied by the user being authenticated",
    "Server side error",
    "Your application is not allowed to perform the requested operation",
    "Terms & Conditions rejected by the end user",
    "The FACEIO Widget could not be injected onto the client DOM",
    "Client session expired",
    "Ongoing operation timed out",
    "Widget instantiation requests exceeded for freemium applications",
    "Origin or Referer HTTP request header is empty or missing",
    "Domain origin is forbidden from instantiating fio.js",
    "Country ISO-3166-1 Code is forbidden from instantiating fio.js",
    "Another authentication or enrollment session is in progress"
  ]

  /** Which named case of the switch matches; `None` for the default. */
  function Case(e: FioError): (r: Option<nat>)
    ensures r.Some? ==> r.value < |Named| && Named[r.value] == e
    ensures r.None? <==> e.NetworkIo? || e.Unlisted?
  {
    match e
    case PermissionRefused => Some(0)
    case NoFacesDetected => Some(1)
    case UnrecognizedFace => Some(2)
    case ManyFaces => Some(3)
    case FaceDuplication => Some(4)
    case MinorsNotAllowed => Some(5)
    case PadAttack => Some(6)
    case FaceMismatch => Some(7)
    case WrongPinCode => Some(8)
    case ProcessingErr => Some(9)
    case Unauthorized => Some(10)
    case TermsNotAccepted => Some(11)
    case UiNotReady => Some(12)
    case SessionExpired => Some(13)
    case Timeout => Some(14)
    case TooManyRequests => Some(15)
    case EmptyOrigin => Some(16)
    case ForbiddenOrigin => Some(17)
    case ForbiddenCountry => Some(18)
    case SessionInProgress => Some(19)
    case NetworkIo => None
    case Unlisted => None
  }

  /** `handleError`: the named case's message, or the network message for
      `NetworkIo` and everything unlisted. */
  function ErrorMessage(e: FioError): string {
    match Case(e)
    case Some(i) => NamedMessages[i]
    case None => NetworkMessage
  }

  lemma NamedMessagesDistinct()
    ensures forall i, j :: 0 <= i < j < |NamedMessages| ==> NamedMessages[i] != NamedMessages[j]
    ensures forall i :: 0 <= i < |NamedMessages| ==> NamedMessages[i] != NetworkMessage
  {
  }

  /** The first named case whose message is `m`, searching from `from`. */
  function ErrorOf(m: string, from: nat): (e: FioError)
    requires from <= |Named|
    decreases |Named| - from
  {
    if from == |Named| then NetworkIo
    else if NamedMessages[from] == m then Named[from]
    else ErrorOf(m, from + 1)
  }

  lemma {:induction false} ErrorOfFinds(m: string, from: nat, k: nat)
    requires from <= k < |Named| && NamedMessages[k] == m
    requires forall i :: from <= i < k ==> NamedMessages[i] != m
    ensures ErrorOf(m, from) == Named[k]
    decreases k - from
  {
    if from < k {
      ErrorOfFinds(m, from + 1, k);
    }
  }

  lemma {:induction false} ErrorOfMisses(m: string, from: nat)
    requires from <= |Named|
    requires forall i :: from <= i < |Named| ==> NamedMessages[i] != m
    ensures ErrorOf(m, from) == NetworkIo
    decreases |Named| - from
  {
    if from < |Named| {
      ErrorOfMisses(m, from + 1);
    }
  }

  /**
   * The mapping is total and loses only the difference between `NetworkIo`
   * and an unlisted value: the message gives back the named error, and the
   * network message is produced by exactly those two.
   */
  lemma ErrorMessageRoundTrip(e: FioError)
    ensures ErrorOf(ErrorMessage(e), 0) == if e.Unlisted? then NetworkIo else e
    ensures ErrorMessage(e) == NetworkMessage <==> e.NetworkIo? || e.Unlisted?
  {
    NamedMessagesDistinct();
    match Case(e)
    case Some(k) =>
      ErrorOfFinds(ErrorMessage(e), 0, k);
    case None =>
      ErrorOfMisses(NetworkMessage, 0);
  }

  /** The message a "no faces" rejection is reported with. */
  lemma NoFacesMessage()
    ensures ErrorMessage(NoFacesDetected) == "No faces were detected during the enroll or authentication process"
  {
    assert Case(NoFacesDetected) == Some(1);
  }

  /** The part of the SDK's result the page reads. */
  datatype Payload = Payload(rollNumber: string)

  /** The payload's roll number, or the literal `Unknown` when the result carries no payload. */
  function RollNumber(payload: Option<Payload>): string {
    match payload
    case Some(p) => p.rollNumber
    case None => "Unknown"
  }

  function Initial(): Scan.Page {
    Scan.Initial(Bridge.Authentication)
  }

  /** `faceio.authenticate(...)` resolves; the roll number read from it is reported. */
  function Authenticated(payload: Option<Payload>): Scan.Event {
    Scan.Resolved(RollNumber(payload))
  }

  /** `faceio.authenticate(...)` rejects with an error constant. */
  function AuthFailed(e: FioError): Scan.Event {
    Scan.Rejected(ErrorMessage(e))
  }

  /** The fallback cannot be told apart from a payload whose roll number is
      literally "Unknown": the host receives the same string. That is the
      only loss: two results report the same roll number exactly when they
      are the same result or both read as "Unknown". */
  lemma UnknownIsAmbiguous(a: Option<Payload>, b: Option<Payload>)
    ensures Authenticated(None) == Authenticated(Some(Payload("Unknown")))
    ensures forall r :: Authenticated(Some(Payload(r))) == Scan.Resolved(r)
    ensures Authenticated(a) == Authenticated(b) <==>
            a == b || ((a.None? || a == Some(Payload("Unknown"))) && (b.None? || b == Some(Payload("Unknown"))))
  {
  }
}

=== FILE: bridge.dfy ===
/**
 * The native side of the page-to-app bridge: `FaceIoAuthJsInterface` and
 * `StudentFaceRegistrationJsInterface`. Both objects are the same code: the
 * success method is first-call-wins (the flag is checked and set on the
 * calling thread before the closure is posted to the main looper), while
 * `onError` and `onClose` post one closure per call and `log` posts nothing.
 *
 * `Handler.post` is modelled as appending to an ordered outbox of closure
 * invocations; what a closure does when it later runs (including throwing,
 * which the posted block catches and logs) cannot reach the flag.
 */
module Bridge {

  /** Which interface: only the registration one exposes `onClose`. */
  datatype Kind = Authentication | Registration

  /** A call from the page's script into `AndroidInterface`. */
  datatype Call =
    | Succeed(value: string)   // onAuthenticated(rollNumber) or onFaceRegistered(faceId)
    | Fail(error: string)      // onError(error)
    | Close                    // onClose()
    | Log(message: string)     // log(message)

  /** A closure invocation posted to the main looper. */
  datatype Callback = Success(value: string) | Error(error: string) | Closed

  /** The interface object's only state: `hasAuthenticated` / `hasRegistered`. */
  datatype Guard = Guard(kind: Kind, fired: bool)

  datatype Step = Step(guard: Guard, posted: seq<Callback>)

  function Fresh(kind: Kind): Guard {
    Guard(kind, false)
  }

  /** The call names a method the interface object actually has. */
  predicate Exposes(kind: Kind, c: Call) {
    kind.Registration? || !c.Close?
  }

  /** How many parameters the interface's method for the call declares:
      `onClose()` takes none, every other method one string. */
  function Parameters(c: Call): nat {
    if c.Close? then 0 else 1
  }

  predicate AllExposed(kind: Kind, calls: seq<Call>) {
    forall i :: 0 <= i < |calls| ==> Exposes(kind, calls[i])
  }

  /** One incoming call: what it does to the flag and what it posts. */
  function Receive(g: Guard, c: Call): (r: Step)
    requires Exposes(g.kind, c)
    ensures r.guard.kind == g.kind
    ensures r.guard.fired <==> g.fired || c.Succeed?
    ensures |r.posted| <= 1
  {
    match c
    case Succeed(v) => if g.fired then Step(g, []) else Step(g.(fired := true), [Success(v)])
    case Fail(e) => Step(g, [Error(e)])
    case Close => Step(g, [Closed])
    case Log(_) => Step(g, [])
  }

  /** A sequence of calls, in the order the script engine delivers them. */
  function Run(g: Guard, calls: seq<Call>): (r: Step)
    requires AllExposed(g.kind, calls)
    ensures r.guard.kind == g.kind
    decreases |calls|
  {
    if calls == [] then Step(g, [])
    else
      var first := Receive(g, calls[0]);
      var rest := Run(first.guard, calls[1..]);
      Step(rest.guard, first.posted + rest.posted)
  }

  // ---------------------------------------------------------------------
  // Reference definitions the guarded run is compared against.

  /** The closure a call would post if there were no flag. */
  function Posting(c: Call): seq<Callback> {
    match c
    case Succeed(v) => [Success(v)]
    case Fail(e) => [Error(e)]
    case Close => [Closed]
    case Log(_) => []
  }

  /** What an interface without the one-shot flag would post. */
  function Unguarded(calls: seq<Call>): seq<Callback> {
    if calls == [] then [] else Posting(calls[0]) + Unguarded(calls[1..])
  }

  /** Without a close call, no close closure would be posted. */
  lemma {:induction false} UnguardedWithoutClose(calls: seq<Call>)
    requires forall i :: 0 <= i < |calls| ==> !calls[i].Close?
    ensures Closed !in Unguarded(calls)
    decreases |calls|
  {
    if calls != [] {
      assert !calls[0].Close?;
      UnguardedWithoutClose(calls[1..]);
    }
  }

  /** The values carried by the success calls, in call order. */
  function SucceedValues(calls: seq<Call>): seq<string> {
    if calls == [] then []
    else (if calls[0].Succeed? then [calls[0].value] else []) + SucceedValues(calls[1..])
  }

  /** The values of the posted success closures, in posting order. */
  function Successes(cbs: seq<Callback>): seq<string> {
    if cbs == [] then []
    else (if cbs[0].Success? then [cbs[0].value] else []) + Successes(cbs[1..])
  }

  /** The posted error and close closures, in posting order. */
  function Others(cbs: seq<Callback>): seq<Callback> {
    if cbs == [] then []
    else (if cbs[0].Success? then [] else [cbs[0]]) + Others(cbs[1..])
  }

  lemma SuccessesAppend(a: seq<Callback>, b: seq<Callback>)
    ensures Successes(a + b) == Successes(a) + Successes(b)
    ensures Others(a + b) == Others(a) + Others(b)
  {
    if a != [] {
      assert (a + b)[0] == a[0] && (a + b)[1..] == a[1..] + b;
      SuccessesAppend(a[1..], b);
    } else {
      assert a + b == b;
    }
  }

  lemma {:induction false} SucceedValuesAppend(a: seq<Call>, b: seq<Call>)
    ensures SucceedValues(a + b) == SucceedValues(a) + SucceedValues(b)
  {
    if a != [] {
      assert (a + b)[0] == a[0] && (a + b)[1..] == a[1..] + b;
      SucceedValuesAppend(a[1..], b);
    } else {
      assert a + b == b;
    }
  }

  lemma AllExposedTail(kind: Kind, calls: seq<Call>)
    requires calls != [] && AllExposed(kind, calls)
    ensures Exposes(kind, calls[0]) && AllExposed(kind, calls[1..])
  {
    assert forall i :: 0 <= i < |calls| - 1 ==> calls[1..][i] == calls[i + 1];
  }

  /**
   * The delivery guarantee, for any call sequence: at most one success
   * closure is posted, and it carries the value of the first success call
   * (none at all once the flag was already set); every error and close call
   * posts its closure, in order, whatever came before; the flag ends set
   * exactly when it was set or some success call arrived.
   */
  lemma {:induction false} Delivery(g: Guard, calls: seq<Call>)
    requires AllExposed(g.kind, calls)
    ensures Successes(Run(g, calls).posted)
            == if g.fired || SucceedValues(calls) == [] then [] else [SucceedValues(calls)[0]]
    ensures Others(Run(g, calls).posted) == Others(Unguarded(calls))
    ensures Run(g, calls).guard.fired <==> g.fired || SucceedValues(calls) != []
    decreases |calls|
  {
    if calls != [] {
      AllExposedTail(g.kind, calls);
      var first := Receive(g, calls[0]);
      Delivery(first.guard, calls[1..]);
      SuccessesAppend(first.posted, Run(first.guard, calls[1..]).posted);
      SuccessesAppend(Posting(calls[0]), Unguarded(calls[1..]));
    }
  }

  /** At most one success closure reaches the host, whatever the script does. */
  lemma AtMostOneSuccess(kind: Kind, calls: seq<Call>)
    requires AllExposed(kind, calls)
    ensures |Successes(Run(Fresh(kind), calls).posted)| <= 1
    ensures |Successes(Run(Fresh(kind), calls).posted)| == 1 <==> SucceedValues(calls) != []
  {
    Delivery(Fresh(kind), calls);
  }

  /** Once the flag is set it stays set and no success closure is posted again. */
  lemma FiredIsFinal(g: Guard, calls: seq<Call>)
    requires g.fired && AllExposed(g.kind, calls)
    ensures Run(g, calls).guard.fired
    ensures Successes(Run(g, calls).posted) == []
  {
    Delivery(g, calls);
  }

  /** Splitting a call sequence splits the run. */
  lemma {:induction false} RunAppend(g: Guard, a: seq<Call>, b: seq<Call>)
    requires AllExposed(g.kind, a) && AllExposed(g.kind, b)
    ensures AllExposed(g.kind, a + b)
    ensures Run(g, a + b).guard == Run(Run(g, a).guard, b).guard
    ensures Run(g, a + b).posted == Run(g, a).posted + Run(Run(g, a).guard, b).posted
    decreases |a|
  {
    if a != [] {
      AllExposedTail(g.kind, a);
      assert (a + b)[0] == a[0] && (a + b)[1..] == a[1..] + b;
      var first := Receive(g, a[0]);
      RunAppend(first.guard, a[1..], b);
    } else {
      assert a + b == b;
    }
  }

  /** A `log` call anywhere in a sequence changes nothing that is posted or kept. */
  lemma LogIsInert(g: Guard, a: seq<Call>, message: string, b: seq<Call>)
    requires AllExposed(g.kind, a) && AllExposed(g.kind, b)
    ensures AllExposed(g.kind, a + [Log(message)] + b)
    ensures Run(g, a + [Log(message)] + b) == Run(g, a + b)
  {
    var log := [Log(message)];
    RunAppend(g, a, log);
    RunAppend(g, a + log, b);
    RunAppend(g, a, b);
  }

  /** When the script makes at most one success call, the flag is invisible:
      the interface posts exactly what an unguarded one would. */
  lemma {:induction false} GuardTransparent(g: Guard, calls: seq<Call>)
    requires AllExposed(g.kind, calls) && !g.fired && |SucceedValues(calls)| <= 1
    ensures Run(g, calls).posted == Unguarded(calls)
    decreases |calls|
  {
    if calls != [] {
      AllExposedTail(g.kind, calls);
      var first := Receive(g, calls[0]);
      if calls[0].Succeed? {
        NoSuccessUnguarded(first.guard, calls[1..]);
      } else {
        GuardTransparent(first.guard, calls[1..]);
      }
    }
  }

  lemma {:induction false} NoSuccessUnguarded(g: Guard, calls: seq<Call>)
    requires AllExposed(g.kind, calls) && SucceedValues(calls) == []
    ensures Run(g, calls).posted == Unguarded(calls)
    ensures Run(g, calls).guard == g
    decreases |calls|
  {
    if calls != [] {
      AllExposedTail(g.kind, calls);
      NoSuccessUnguarded(Receive(g, calls[0]).guard, calls[1..]);
    }
  }
}

=== FILE: decimal.dfy ===
/**
 * JavaScript's rendering of an integer error code inside a string
 * concatenation (`"..." + errCode`), and the parse that undoes it. It agrees
 * with JavaScript for integers a double holds exactly (magnitude at most
 * 2^53); larger codes are not distinguished here, and from 10^21 upwards
 * JavaScript writes exponent notation (`1e+21`) instead.
 */
module Decimal {
  import opened Optional

  predicate IsDigit(c: char) {
    '0' <= c <= '9'
  }

  function DigitChar(d: nat): (c: char)
    requires d < 10
    ensures IsDigit(c)
  {
    (d + '0' as int) as char
  }

  function DigitValue(c: char): (d: nat)
    requires IsDigit(c)
    ensures d < 10 && DigitChar(d) == c
  {
    c as int - '0' as int
  }

  /** Shortest decimal spelling of a natural number: no leading zero. */
  function NatToString(n: nat): (r: string)
    ensures |r| >= 1
    ensures forall i :: 0 <= i < |r| ==> IsDigit(r[i])
    ensures |r| > 1 ==> r[0] != '0'
  {
    if n < 10 then [DigitChar(n)] else NatToString(n / 10) + [DigitChar(n % 10)]
  }

  /** Plain decimal spelling of `n`, a minus sign in front of negatives:
      `String(n)` when `n` is an exactly representable integer (|n| <= 2^53). */
  function IntToString(n: int): string {
    if n < 0 then "-" + NatToString(-n) else NatToString(n)
  }

  predicate AllDigits(s: string) {
    forall i :: 0 <= i < |s| ==> IsDigit(s[i])
  }

  /** Value of a non-empty digit string, most significant digit first. */
  function ParseNat(s: string): nat
    requires |s| >= 1 && AllDigits(s)
  {
    if |s| == 1 then DigitValue(s[0])
    else ParseNat(s[..|s| - 1]) * 10 + DigitValue(s[|s| - 1])
  }

  /** Reads back an integer rendered by `IntToString`; `None` for anything else. */
  function ParseInt(s: string): Option<int> {
    if |s| >= 2 && s[0] == '-' && AllDigits(s[1..]) then Some(0 - ParseNat(s[1..]) as int)
    else if |s| >= 1 && AllDigits(s) then Some(ParseNat(s))
    else None
  }

  lemma {:induction false} ParseNatRoundTrip(n: nat)
    ensures ParseNat(NatToString(n)) == n
  {
    if n >= 10 {
      var s := NatToString(n);
      assert s[..|s| - 1] == NatToString(n / 10);
      ParseNatRoundTrip(n / 10);
    }
  }

  /** Rendering an integer and parsing it back gives the integer. */
  lemma IntRoundTrip(n: int)
    ensures ParseInt(IntToString(n)) == Some(n)
  {
    if n < 0 {
      var s := IntToString(n);
      assert s[1..] == NatToString(-n);
      ParseNatRoundTrip(-n);
      assert -n != 0;
    } else {
      ParseNatRoundTrip(n);
    }
  }

  /** Distinct integers render differently. */
  lemma IntToStringInjective(a: int, b: int)
    requires IntToString(a) == IntToString(b)
    ensures a == b
  {
    IntRoundTrip(a);
    IntRoundTrip(b);
  }
}

=== FILE: enroll_page.dfy ===
/**
 * What is specific to the registration page: the enroll result's `facialId`
 * is the success value, and `handleError` maps the SDK's numeric code through
 * a table of 21 messages with a fallback that spells out the code.
 */
module EnrollPage {
  import opened Optional
  import Decimal
  import Bridge
  import Scan

  /** `errorMessages` in `handleError`: entry `k - 1` is the message for code `k`. */
  const Messages: seq<string> := [
    "Camera permission denied",
    "No face detected. Please position face in camera",
    "Face not recognized during enrollment",
    "Multiple faces detected. Please ensure only one face is visible",
    "Face already enrolled. You are already registered!",
    "Minors not allowed for registration",
    "Presentation attack detected",
    "Face mismatch during enrollment process",
    "Wrong PIN code",
    "Processing error. Please try again",
    "Unauthorized. Please check application settings",
    "Terms not accepted",
    "UI not ready. Please refresh and try again",
    "Session expired. Please try again",
    "Operation timed out. Please try again",
    "Too many requests. Please wait a moment",
    "Empty origin error",
    "Forbidden origin",
    "Forbidden country",
    "Session in progress",
    "Network error. Please check connection"
  ]

  const UnknownPrefix: string := "Unknown error occurred (Code: "

  /** The fallback message for a code the table does not know, with the code
      spelled in plain decimal (see `Decimal.IntToString` for its range). */
  function Fallback(code: int): string {
    UnknownPrefix + Decimal.IntToString(code) + ")"
  }

  /** `handleError`: the table entry when there is a non-empty one, the
      fallback otherwise. Since no entry is empty, the table answers exactly
      the codes 1 to 21. */
  function ErrorMessage(code: int): (m: string)
    ensures 1 <= code <= 21 ==> m == Messages[code - 1]
    ensures !(1 <= code <= 21) ==> m == Fallback(code)
  {
    if 1 <= code <= |Messages| && Messages[code - 1] != "" then Messages[code - 1] else Fallback(code)
  }

  /** The first table position holding `m`, searching from `from`. */
  function IndexOf(m: string, from: nat): (r: Option<nat>)
    requires from <= |Messages|
    ensures r.Some? ==> from <= r.value < |Messages| && Messages[r.value] == m
    ensures r.None? ==> forall j :: from <= j < |Messages| ==> Messages[j] != m
    decreases |Messages| - from
  {
    if from == |Messages| then None
    else if Messages[from] == m then Some(from)
    else IndexOf(m, from + 1)
  }

  /** Reads the code back out of a message produced by `handleError`. */
  function CodeOf(m: string): Option<int> {
    match IndexOf(m, 0)
    case Some(j) => Some(j + 1)
    case None =>
      var n := |UnknownPrefix|;
      if |m| > n && m[..n] == UnknownPrefix && m[|m| - 1] == ')' then Decimal.ParseInt(m[n..|m| - 1])
      else None
  }

  lemma MessagesDistinct()
    ensures forall i, j :: 0 <= i < j < |Messages| ==> Messages[i] != Messages[j]
  {
  }

  lemma FallbackNotInTable(code: int)
    ensures forall j :: 0 <= j < |Messages| ==> Messages[j] != Fallback(code)
  {
    var m := Fallback(code);
    assert m[|m| - 1] == ')';
    forall j | 0 <= j < |Messages|
      ensures Messages[j] != m
    {
      NoEntryEndsWithParen(j);
    }
  }

  /** No table entry ends with a closing parenthesis, and every fallback does. */
  lemma NoEntryEndsWithParen(j: nat)
    requires j < |Messages|
    ensures |Messages[j]| >= 1 && Messages[j][|Messages[j]| - 1] != ')'
  {
  }

  /** Every code's message identifies the code: distinct codes never share a
      message, and the fallback carries the code itself. */
  lemma ErrorMessageRoundTrip(code: int)
    ensures CodeOf(ErrorMessage(code)) == Some(code)
  {
    var m := ErrorMessage(code);
    if 1 <= code <= 21 {
      MessagesDistinct();
    } else {
      FallbackNotInTable(code);
      var n := |UnknownPrefix|;
      assert m[..n] == UnknownPrefix;
      assert m[n..|m| - 1] == Decimal.IntToString(code);
      Decimal.IntRoundTrip(code);
    }
  }

  function Initial(): Scan.Page {
    Scan.Initial(Bridge.Registration)
  }

  /** `faceio.enroll(...)` resolves with a result whose `facialId` is reported. */
  function Enrolled(facialId: string): Scan.Event {
    Scan.Resolved(facialId)
  }

  /** `faceio.enroll(...)` rejects with a numeric code. */
  function EnrollFailed(code: int): Scan.Event {
    Scan.Rejected(ErrorMessage(code))
  }
}

=== FILE: login.dfy ===
/**
 * `LoginScreen`: the sign-in form over `ProfileViewModel`, its two
 * validators, the "already registered my face" toggle, and the way the
 * nested registration screen's callbacks change it. The save started by a
 * sign-in is in flight between the click and `SaveFinished`.
 */
module Login {
  import opened Optional
  import Text
  import Profile
  import RegistrationScreen

  datatype Screen = Screen(
    vm: Profile.ViewModel,
    classInput: string,
    showError: Option<string>,
    showSuccess: bool,
    showFaceRegistration: bool,
    faceRegistrationCompleted: bool,
    registeredFaceId: Option<string>,
    alreadyRegistered: bool,
    inFlight: Option<Profile.ProfileData>)

  function Initial(vm: Profile.ViewModel): Screen {
    Screen(vm, "", None, false, false, false, None, false, None)
  }

  // Sign-in messages, in the order the checks run.
  const NameMissing: string := "Please enter your full name"
  const NameTooShort: string := "Name must be at least 2 characters"
  const RollMissing: string := "Please enter your roll number"
  const RollTooShort: string := "Roll number must be at least 4 characters"
  const ClassMissing: string := "Please enter your class"
  const FaceRequired: string := "Please complete face registration or toggle 'I have already registered my face'"

  // Register Face pre-check messages (the length message is shared).
  const NameMissingFirst: string := "Please enter your full name first"
  const RollMissingFirst: string := "Please enter your roll number first"

  const RegistrationFailedPrefix: string := "Face registration failed: "

  /** All six sign-in checks pass. */
  predicate SignInAllowed(name: string, roll: string, cls: string, already: bool, completed: bool) {
    && !Text.IsBlank(name) && |name| >= 2
    && !Text.IsBlank(roll) && |roll| >= 4
    && !Text.IsBlank(cls)
    && (already || completed)
  }

  /** The first failing sign-in check's message, if any; each message is
      reported exactly when its check fails and all earlier ones pass. */
  function SignInError(name: string, roll: string, cls: string, already: bool, completed: bool): (r: Option<string>)
    ensures r.None? <==> SignInAllowed(name, roll, cls, already, completed)
    ensures r == Some(NameMissing) <==> Text.IsBlank(name)
    ensures r == Some(NameTooShort) <==> !Text.IsBlank(name) && |name| < 2
    ensures r == Some(RollMissing) <==> !Text.IsBlank(name) && |name| >= 2 && Text.IsBlank(roll)
    ensures r == Some(RollTooShort) <==>
      !Text.IsBlank(name) && |name| >= 2 && !Text.IsBlank(roll) && |roll| < 4
    ensures r == Some(ClassMissing) <==>
      !Text.IsBlank(name) && |name| >= 2 && !Text.IsBlank(roll) && |roll| >= 4 && Text.IsBlank(cls)
    ensures r == Some(FaceRequired) <==>
      !Text.IsBlank(name) && |name| >= 2 && !Text.IsBlank(roll) && |roll| >= 4 && !Text.IsBlank(cls)
      && !already && !completed
  {
    if Text.IsBlank(name) then Some(NameMissing)
    else if |name| < 2 then Some(NameTooShort)
    else if Text.IsBlank(roll) then Some(RollMissing)
    else if |roll| < 4 then Some(RollTooShort)
    else if Text.IsBlank(cls) then Some(ClassMissing)
    else if !already && !completed then Some(FaceRequired)
    else None
  }

  /** The Register Face pre-check: blank name, blank roll number, short roll
      number, in that order; class and toggle are not looked at. */
  function RegisterError(name: string, roll: string): (r: Option<string>)
    ensures r.None? <==> !Text.IsBlank(name) && !Text.IsBlank(roll) && |roll| >= 4
    ensures r == Some(NameMissingFirst) <==> Text.IsBlank(name)
    ensures r == Some(RollMissingFirst) <==> !Text.IsBlank(name) && Text.IsBlank(roll)
    ensures r == Some(RollTooShort) <==> !Text.IsBlank(name) && !Text.IsBlank(roll) && |roll| < 4
  {
    if Text.IsBlank(name) then Some(NameMissingFirst)
    else if Text.IsBlank(roll) then Some(RollMissingFirst)
    else if |roll| < 4 then Some(RollTooShort)
    else None
  }

  /** Every field, the toggle, Sign In and Clear Form share this enabling
      condition; the form itself is only on screen while registration is not. */
  predicate InputsEnabled(s: Screen) {
    !s.showFaceRegistration && !s.vm.isSaving && !s.showSuccess
  }

  predicate RegisterFaceEnabled(s: Screen) {
    InputsEnabled(s) && !s.alreadyRegistered && !s.faceRegistrationCompleted
  }

  datatype Event =
    | EditName(name: string)
    | EditRollNumber(roll: string)
    | EditClass(cls: string)
    | Toggle(on: bool)
    | RegisterFace
    | SignIn
    | SaveFinished(outcome: Profile.Outcome)
    | Registration(notice: RegistrationScreen.Notice)
    | ClearForm
    | ErrorExpired

  predicate Enabled(s: Screen, e: Event) {
    match e
    case RegisterFace => RegisterFaceEnabled(s)
    case SaveFinished(_) => s.inFlight.Some?
    case Registration(_) => true
    case ErrorExpired => s.showError.Some?
    case _ => InputsEnabled(s)
  }

  function OnToggle(s: Screen, on: bool): (r: Screen)
    ensures r.alreadyRegistered == on
    ensures on ==> r == s.(alreadyRegistered := true, faceRegistrationCompleted := false,
                           registeredFaceId := None, showError := None)
    ensures !on ==> r == s.(alreadyRegistered := false)
  {
    if on then
      s.(alreadyRegistered := true, faceRegistrationCompleted := false, registeredFaceId := None, showError := None)
    else s.(alreadyRegistered := false)
  }

  function OnRegisterFace(s: Screen): (r: Screen)
    ensures r.showFaceRegistration <==>
      s.showFaceRegistration || RegisterError(s.vm.nameInput, s.vm.rollNumberInput).None?
    ensures r.showError == RegisterError(s.vm.nameInput, s.vm.rollNumberInput)
    ensures r.(showError := s.showError, showFaceRegistration := s.showFaceRegistration) == s
  {
    match RegisterError(s.vm.nameInput, s.vm.rollNumberInput)
    case Some(m) => s.(showError := Some(m))
    case None => s.(showError := None, showFaceRegistration := true)
  }

  /** Sign In: a failing check sets its message and changes nothing else;
      otherwise the error is cleared and `saveProfileWithClass` starts with
      the two view-model inputs and the screen's own class input; the
      view model's blank check then always passes. */
  function OnSignIn(s: Screen): (r: Screen)
    ensures var err := SignInError(s.vm.nameInput, s.vm.rollNumberInput, s.classInput,
                                   s.alreadyRegistered, s.faceRegistrationCompleted);
            && (err.Some? ==> r == s.(showError := err))
            && (err.None? ==>
                  && r.showError.None? && r.vm == s.vm.(isSaving := true)
                  && r.inFlight == Some(Profile.Normalize(s.vm.nameInput, s.vm.rollNumberInput, s.classInput))
                  && r.(showError := s.showError, vm := s.vm, inFlight := s.inFlight) == s)
  {
    var err := SignInError(s.vm.nameInput, s.vm.rollNumberInput, s.classInput,
                           s.alreadyRegistered, s.faceRegistrationCompleted);
    if err.Some? then s.(showError := err)
    else
      match Profile.BeginSaveWithClass(s.vm, s.vm.nameInput, s.vm.rollNumberInput, s.classInput)
      case Refused(reply) =>
        assert false;
        s
      case Saving(vm, request) => s.(showError := None, vm := vm, inFlight := Some(request))
  }

  /** The save's second half, then the callback it picked. */
  function OnSaveFinished(s: Screen, outcome: Profile.Outcome): (r: Screen)
    requires s.inFlight.Some?
    ensures r.inFlight.None? && !r.vm.isSaving
    ensures outcome.Returned? ==> r.showSuccess && r.showError == s.showError
    ensures outcome.Threw? ==>
      r.showSuccess == s.showSuccess && r.showError == Some("Failed to save profile: " + outcome.message)
    ensures outcome.Returned? ==> r.vm.stored == s.inFlight.value
    ensures outcome.Threw? ==> r.vm == s.vm.(isSaving := false)
    ensures r.(vm := s.vm, inFlight := s.inFlight, showSuccess := s.showSuccess, showError := s.showError) == s
  {
    var f := Profile.FinishSaveWithClass(s.vm, s.inFlight.value, outcome);
    var s' := s.(vm := f.vm, inFlight := None);
    match f.reply
    case OnSuccess => s'.(showSuccess := true)
    case OnError(m) => s'.(showError := Some(m))
  }

  /** The three callbacks handed to the registration screen. */
  function OnRegistration(s: Screen, n: RegistrationScreen.Notice): (r: Screen)
    ensures !r.showFaceRegistration
    ensures n.RegistrationSucceeded? ==>
      r == s.(registeredFaceId := Some(n.faceId), faceRegistrationCompleted := true,
              alreadyRegistered := false, showFaceRegistration := false, showError := None)
    ensures n.RegistrationFailed? ==>
      r == s.(showError := Some(RegistrationFailedPrefix + n.error), showFaceRegistration := false)
    ensures n.NavigateBack? ==> r == s.(showFaceRegistration := false)
  {
    match n
    case RegistrationSucceeded(id) =>
      s.(registeredFaceId := Some(id), faceRegistrationCompleted := true,
         alreadyRegistered := false, showFaceRegistration := false, showError := None)
    case RegistrationFailed(e) => s.(showError := Some(RegistrationFailedPrefix + e), showFaceRegistration := false)
    case NavigateBack => s.(showFaceRegistration := false)
  }

  function OnClearForm(s: Screen): (r: Screen)
    ensures r.vm.nameInput == "" && r.vm.rollNumberInput == "" && r.classInput == ""
    ensures !r.faceRegistrationCompleted && r.registeredFaceId.None? && !r.alreadyRegistered && r.showError.None?
    ensures r.vm.(nameInput := s.vm.nameInput, rollNumberInput := s.vm.rollNumberInput) == s.vm
    ensures r.(vm := s.vm, classInput := s.classInput, faceRegistrationCompleted := s.faceRegistrationCompleted,
               registeredFaceId := s.registeredFaceId, alreadyRegistered := s.alreadyRegistered,
               showError := s.showError) == s
  {
    var vm := Profile.UpdateRollNumberInput(Profile.UpdateNameInput(s.vm, ""), "");
    s.(vm := vm, classInput := "", faceRegistrationCompleted := false, registeredFaceId := None,
       alreadyRegistered := false, showError := None)
  }

  function Step(s: Screen, e: Event): Screen
    requires Enabled(s, e)
  {
    match e
    case EditName(x) => s.(vm := Profile.UpdateNameInput(s.vm, x))
    case EditRollNumber(x) => s.(vm := Profile.UpdateRollNumberInput(s.vm, x))
    case EditClass(x) => s.(classInput := x)
    case Toggle(on) => OnToggle(s, on)
    case RegisterFace => OnRegisterFace(s)
    case SignIn => OnSignIn(s)
    case SaveFinished(o) => OnSaveFinished(s, o)
    case Registration(n) => OnRegistration(s, n)
    case ClearForm => OnClearForm(s)
    case ErrorExpired => s.(showError := None)
  }

  /** Events in order; one that is not enabled where it arrives does nothing. */
  function Run(s: Screen, events: seq<Event>): Screen
    decreases |events|
  {
    if events == [] then s
    else if !Enabled(s, events[0]) then Run(s, events[1..])
    else Run(Step(s, events[0]), events[1..])
  }

  /** A save is in flight exactly while the view model is saving. */
  predicate Inv(s: Screen) {
    s.inFlight.Some? <==> s.vm.isSaving
  }

  lemma StepPreserves(s: Screen, e: Event)
    requires Inv(s) && Enabled(s, e)
    ensures Inv(Step(s, e))
  {
  }

  /** At most one save is ever in flight, since Sign In is disabled while the
      view model is saving; success is never withdrawn; and once a save has
      succeeded and finished, the form is frozen: no later event edits it or
      starts another save. */
  lemma {:induction false} OneSaveAtATime(s: Screen, events: seq<Event>)
    requires Inv(s)
    ensures Inv(Run(s, events))
    ensures s.showSuccess ==> Run(s, events).showSuccess
    ensures s.showSuccess && s.inFlight.None? ==>
      && Run(s, events).inFlight.None?
      && Run(s, events).vm.nameInput == s.vm.nameInput
      && Run(s, events).vm.rollNumberInput == s.vm.rollNumberInput
      && Run(s, events).classInput == s.classInput
    decreases |events|
  {
    if events == [] {
    } else if !Enabled(s, events[0]) {
      OneSaveAtATime(s, events[1..]);
    } else {
      StepPreserves(s, events[0]);
      OneSaveAtATime(Step(s, events[0]), events[1..]);
    }
  }

  /** A successful sign-in and save leaves the view model's inputs holding
      the normalised values, shows success, and disables the form. */
  lemma SignInThenSaved(s: Screen)
    requires InputsEnabled(s) && Inv(s)
    requires SignInAllowed(s.vm.nameInput, s.vm.rollNumberInput, s.classInput,
                           s.alreadyRegistered, s.faceRegistrationCompleted)
    ensures var r := OnSaveFinished(OnSignIn(s), Profile.Returned);
            && r.showSuccess && !InputsEnabled(r) && Profile.IsFormValid(r.vm) && Profile.IsProfileSaved(r.vm)
            && r.vm.nameInput == Text.Trim(s.vm.nameInput)
            && r.vm.rollNumberInput == Text.Trim(s.vm.rollNumberInput)
            && r.vm.classNameInput == Text.Upper(Text.Trim(s.classInput))
  {
  }

  /** A completed registration lifts the face check, greys out Register Face
      and keeps the face id. */
  lemma RegistrationUnlocksSignIn(s: Screen, id: string)
    ensures var r := OnRegistration(s, RegistrationScreen.RegistrationSucceeded(id));
            && SignInError(r.vm.nameInput, r.vm.rollNumberInput, r.classInput,
                           r.alreadyRegistered, r.faceRegistrationCompleted) != Some(FaceRequired)
            && !RegisterFaceEnabled(r)
            && r.registeredFaceId == Some(id)
  {
  }

  /** After Clear Form, Sign In reports the missing name and starts nothing. */
  lemma ClearThenSignIn(s: Screen)
    ensures var c := OnClearForm(s);
            OnSignIn(c) == c.(showError := Some(NameMissing))
  {
    assert Text.IsBlank(OnClearForm(s).vm.nameInput);
  }

  /** The length checks look at the untrimmed inputs, while the view model
      saves trimmed ones: any two-character roll number padded with two
      leading spaces passes every check and is saved with two characters. */
  lemma LengthCheckedBeforeTrim(name: string, core: string, cls: string)
    requires |name| >= 2 && !Text.IsBlank(name) && !Text.IsBlank(cls)
    requires |core| == 2 && !Text.IsWhitespace(core[0]) && !Text.IsWhitespace(core[1])
    ensures SignInAllowed(name, [' ', ' '] + core, cls, true, false)
    ensures |Profile.Normalize(name, [' ', ' '] + core, cls).rollNumber| == 2 < 4
  {
    var roll := [' ', ' '] + core;
    assert roll[2] == core[0];
    Text.TrimDropsPadding([' ', ' '], core, []);
    assert [' ', ' '] + core + [] == roll;
  }
}

=== FILE: optional.dfy ===
/** A value that may be absent: Kotlin's nullable types and JavaScript's missing fields. */
module Optional {

  datatype Option<+T> = None | Some(value: T) {

    /** The value when present, the given fallback otherwise (Kotlin's `?:`). */
    function GetOr(default: T): T {
      match this
      case Some(v) => v
      case None => default
    }
  }
}

=== FILE: permission.dfy ===
/**
 * `WebChromeClient.onPermissionRequest` as both web views install it: a camera
 * request is answered with the camera alone, any other request is granted as
 * asked, and a null request is ignored.
 */
module Permission {
  import opened Optional

  /** `PermissionRequest.RESOURCE_VIDEO_CAPTURE`. */
  const VideoCapture: string := "android.webkit.resource.VIDEO_CAPTURE"

  /** The resources passed to `grant`, or `None` when `grant` is not called. */
  function Grant(request: Option<seq<string>>): (granted: Option<seq<string>>)
    ensures granted.Some? <==> request.Some?
    ensures granted.Some? ==> forall r :: r in granted.value ==> r in request.value
    ensures granted.Some? ==> (VideoCapture in granted.value <==> VideoCapture in request.value)
    ensures granted.Some? && VideoCapture in granted.value ==> granted.value == [VideoCapture]
    ensures granted.Some? && VideoCapture !in request.value ==> granted.value == request.value
  {
    match request
    case None => None
    case Some(resources) =>
      if VideoCapture in resources then Some([VideoCapture]) else Some(resources)
  }

  /** Answering the granted set again grants the same set: the rule is a projection. */
  lemma GrantIdempotent(request: Option<seq<string>>)
    ensures Grant(Grant(request)) == Grant(request)
  {
  }
}

=== FILE: profile.dfy ===
/**
 * `ProfileViewModel`: the three form inputs, the `isSaving` flag, and the
 * save and reset operations over `ProfileRepository`. Each coroutine is cut
 * at its one suspension point, the repository call: `Begin...` runs up to
 * it, `Finish...` runs after it with the call's outcome (it returned, or it
 * threw with some message). The repository itself is not part of this
 * model; the view model's copy of its profile (`stored`) is taken to be
 * what the last successful call wrote. The form is filled from the first
 * value the `profileData` flow emits, which is a parameter here.
 */
module Profile {
  import opened Optional
  import Text

  datatype ProfileData = ProfileData(name: string, rollNumber: string, className: string)

  /** `ProfileData()`: the value the `profileData` flow starts with
      (`stateIn`'s `initialValue`), and what a reset leaves behind. */
  const Cleared: ProfileData := ProfileData("", "", "")

  datatype ViewModel = ViewModel(
    nameInput: string,
    rollNumberInput: string,
    classNameInput: string,
    isSaving: bool,
    isFormInitialized: bool,
    stored: ProfileData)

  /** How a repository call ended. */
  datatype Outcome = Returned | Threw(message: string)

  /** Which of the caller's callbacks ran, and with what. */
  datatype Reply = OnSuccess | OnError(message: string)

  /** A save coroutine after its first half: either it gave up before the
      repository call, or the view model is saving and the call is in progress. */
  datatype Begun = Refused(reply: Reply) | Saving(vm: ViewModel, request: ProfileData)

  datatype Finished = Finished(vm: ViewModel, reply: Reply)

  const FillAllFields: string := "Please fill in all fields"

  function Fresh(stored: ProfileData): ViewModel {
    ViewModel("", "", "", false, false, stored)
  }

  /** Both `isFormValid` (on the inputs) and `isProfileSaved` (on the stored
      profile) are this predicate. */
  predicate Complete(name: string, rollNumber: string, className: string) {
    !Text.IsBlank(name) && !Text.IsBlank(rollNumber) && !Text.IsBlank(className)
  }

  predicate IsFormValid(vm: ViewModel) {
    Complete(vm.nameInput, vm.rollNumberInput, vm.classNameInput)
  }

  predicate IsProfileSaved(vm: ViewModel) {
    Complete(vm.stored.name, vm.stored.rollNumber, vm.stored.className)
  }

  /** What is handed to the repository: name and roll number trimmed, class
      trimmed and upper-cased. */
  function Normalize(name: string, rollNumber: string, className: string): (p: ProfileData)
    ensures Complete(p.name, p.rollNumber, p.className) <==> Complete(name, rollNumber, className)
  {
    Text.TrimUpperStable(className);
    ProfileData(Text.Trim(name), Text.Trim(rollNumber), Text.Upper(Text.Trim(className)))
  }

  /** Normalising a normalised profile changes nothing: saving what was saved
      saves the same thing again. */
  lemma NormalizeIdempotent(name: string, rollNumber: string, className: string)
    ensures var p := Normalize(name, rollNumber, className);
            Normalize(p.name, p.rollNumber, p.className) == p
  {
    Text.TrimIdempotent(name);
    Text.TrimIdempotent(rollNumber);
    Text.TrimUpperStable(className);
  }

  function UpdateNameInput(vm: ViewModel, name: string): (r: ViewModel)
    ensures r.nameInput == name && r.(nameInput := vm.nameInput) == vm
  {
    vm.(nameInput := name)
  }

  function UpdateRollNumberInput(vm: ViewModel, rollNumber: string): (r: ViewModel)
    ensures r.rollNumberInput == rollNumber && r.(rollNumberInput := vm.rollNumberInput) == vm
  {
    vm.(rollNumberInput := rollNumber)
  }

  function UpdateClassNameInput(vm: ViewModel, className: string): (r: ViewModel)
    ensures r.classNameInput == className && r.(classNameInput := vm.classNameInput) == vm
  {
    vm.(classNameInput := className)
  }

  /** `initializeFormInputs`: the first value the `profileData` flow emits
      (`take(1)`) fills the three inputs and marks the form initialised; the
      rest of the view model is untouched. */
  function InitializeFormInputs(vm: ViewModel, first: ProfileData): (r: ViewModel)
    ensures IsFormValid(r) <==> Complete(first.name, first.rollNumber, first.className)
    ensures r.isFormInitialized
    ensures r.stored == vm.stored && r.isSaving == vm.isSaving
    ensures r.nameInput == first.name && r.rollNumberInput == first.rollNumber
            && r.classNameInput == first.className
  {
    vm.(nameInput := first.name, rollNumberInput := first.rollNumber,
        classNameInput := first.className, isFormInitialized := true)
  }

  /** The view model calls `initializeFormInputs` from `init`, when
      `profileData` still holds its initial `ProfileData()`; that is the value
      `take(1)` receives, so the form starts empty and invalid even when the
      stored profile is complete. */
  lemma FormStartsEmpty(stored: ProfileData)
    ensures var r := InitializeFormInputs(Fresh(stored), Cleared);
            && r.nameInput == "" && r.rollNumberInput == "" && r.classNameInput == ""
            && !IsFormValid(r) && r.isFormInitialized
            && (IsProfileSaved(r) <==> Complete(stored.name, stored.rollNumber, stored.className))
  {
    assert Text.IsBlank("");
  }

  /** First half of `saveProfileWithClass`: a blank argument ends the
      coroutine with the fill-in error and touches nothing; otherwise
      `isSaving` is raised and the normalised values go to the repository. */
  function BeginSaveWithClass(vm: ViewModel, name: string, rollNumber: string, className: string): (r: Begun)
    ensures r.Refused? <==> !Complete(name, rollNumber, className)
    ensures r.Refused? ==> r.reply == OnError(FillAllFields)
    ensures r.Saving? ==> r.vm == vm.(isSaving := true)
    ensures r.Saving? ==> Complete(r.request.name, r.request.rollNumber, r.request.className)
  {
    if Text.IsBlank(name) || Text.IsBlank(rollNumber) || Text.IsBlank(className) then
      Refused(OnError(FillAllFields))
    else
      Saving(vm.(isSaving := true), Normalize(name, rollNumber, className))
  }

  /** Second half of `saveProfileWithClass`: on success the inputs become the
      saved values; on failure they are left alone; `isSaving` drops either way. */
  function FinishSaveWithClass(vm: ViewModel, request: ProfileData, outcome: Outcome): (r: Finished)
    ensures !r.vm.isSaving && r.vm.isFormInitialized == vm.isFormInitialized
    ensures outcome.Returned? ==> r.reply == OnSuccess && r.vm.stored == request
    ensures outcome.Returned? ==>
      r.vm.nameInput == request.name && r.vm.rollNumberInput == request.rollNumber
      && r.vm.classNameInput == request.className
    ensures outcome.Threw? ==>
      r.reply == OnError("Failed to save profile: " + outcome.message) && r.vm == vm.(isSaving := false)
  {
    match outcome
    case Returned =>
      Finished(vm.(stored := request, nameInput := request.name, rollNumberInput := request.rollNumber,
                   classNameInput := request.className, isSaving := false), OnSuccess)
    case Threw(m) =>
      Finished(vm.(isSaving := false), OnError("Failed to save profile: " + m))
  }

  /** First half of `saveProfile`: the same check and normalisation, applied to the inputs. */
  function BeginSave(vm: ViewModel): (r: Begun)
    ensures r.Refused? <==> !IsFormValid(vm)
    ensures r == BeginSaveWithClass(vm, vm.nameInput, vm.rollNumberInput, vm.classNameInput)
  {
    if Text.IsBlank(vm.nameInput) || Text.IsBlank(vm.rollNumberInput) || Text.IsBlank(vm.classNameInput) then
      Refused(OnError(FillAllFields))
    else
      Saving(vm.(isSaving := true), Normalize(vm.nameInput, vm.rollNumberInput, vm.classNameInput))
  }

  /** Second half of `saveProfile`: unlike the login variant it never writes the inputs back. */
  function FinishSave(vm: ViewModel, request: ProfileData, outcome: Outcome): (r: Finished)
    ensures !r.vm.isSaving && r.vm.isFormInitialized == vm.isFormInitialized
    ensures r.vm.nameInput == vm.nameInput && r.vm.rollNumberInput == vm.rollNumberInput
            && r.vm.classNameInput == vm.classNameInput
    ensures outcome.Returned? ==> r.reply == OnSuccess && r.vm.stored == request
    ensures outcome.Threw? ==>
      r.reply == OnError("Failed to save profile: " + outcome.message) && r.vm.stored == vm.stored
  {
    match outcome
    case Returned => Finished(vm.(stored := request, isSaving := false), OnSuccess)
    case Threw(m) => Finished(vm.(isSaving := false), OnError("Failed to save profile: " + m))
  }

  /** `resetCompleteProfile`: on success everything is empty; on failure nothing changes. */
  function ResetCompleteProfile(vm: ViewModel, outcome: Outcome): (r: Finished)
    ensures outcome.Returned? ==>
      r.reply == OnSuccess && r.vm.nameInput == "" && r.vm.rollNumberInput == ""
      && r.vm.classNameInput == "" && r.vm.stored == Cleared
    ensures outcome.Threw? ==> r.reply == OnError("Failed to reset profile: " + outcome.message) && r.vm == vm
    ensures r.vm.isSaving == vm.isSaving && r.vm.isFormInitialized == vm.isFormInitialized
  {
    match outcome
    case Returned =>
      Finished(vm.(nameInput := "", rollNumberInput := "", classNameInput := "", stored := Cleared), OnSuccess)
    case Threw(m) => Finished(vm, OnError("Failed to reset profile: " + m))
  }

  /** One complete `saveProfileWithClass`: `isSaving` is up exactly while the
      repository call is in progress; on success the form is valid, the profile
      counts as saved and the inputs hold the normalised arguments; on failure
      the inputs are as they were. */
  lemma SaveWithClassBracket(vm: ViewModel, name: string, rollNumber: string, className: string, outcome: Outcome)
    requires Complete(name, rollNumber, className)
    ensures var b := BeginSaveWithClass(vm, name, rollNumber, className);
            && b.Saving? && b.vm.isSaving
            && var f := FinishSaveWithClass(b.vm, b.request, outcome);
            && !f.vm.isSaving
            && (outcome.Returned? ==>
                  IsFormValid(f.vm) && IsProfileSaved(f.vm)
                  && f.vm.nameInput == Text.Trim(name) && f.vm.rollNumberInput == Text.Trim(rollNumber)
                  && f.vm.classNameInput == Text.Upper(Text.Trim(className)))
            && (outcome.Threw? ==>
                  f.vm.nameInput == vm.nameInput && f.vm.rollNumberInput == vm.rollNumberInput
                  && f.vm.classNameInput == vm.classNameInput)
  {
  }

  /** After a successful reset the form is invalid, no profile counts as saved,
      and saving the form is refused before the repository is called. */
  lemma ResetEmptiesEverything(vm: ViewModel)
    ensures var r := ResetCompleteProfile(vm, Returned).vm;
            && !IsFormValid(r) && !IsProfileSaved(r)
            && BeginSave(r) == Refused(OnError(FillAllFields))
  {
  }
}

=== FILE: registration_screen.dfy ===
/**
 * `FaceRegistrationScreen`: the local state of the screen that hosts the
 * registration WebView, the choice of the one content pane it shows, and
 * what each event does to the state and forwards to the enclosing screen.
 */
module RegistrationScreen {
  import opened Optional

  datatype Screen = Screen(
    errorMessage: Option<string>,
    hasCameraPermission: bool,
    permissionDenied: bool,
    isProcessing: bool,
    successMessage: Option<string>,
    registrationComplete: bool)

  const Initial: Screen := Screen(None, false, false, false, None, false)

  const DefaultSuccess: string := "Registration successful!"
  const RegisteredMessage: string := "Face registered successfully!"

  datatype Pane =
    | PermissionDeniedPane
    | LoadingPane
    | ProcessingPane
    | SuccessPane(message: string)
    | WebViewPane

  /** What the screen hands to its caller's three callbacks. */
  datatype Notice = RegistrationSucceeded(faceId: string) | RegistrationFailed(error: string) | NavigateBack

  datatype Event =
    | PermissionGranted
    | PermissionDenied
    | Retry             // button on the permission-denied pane
    | Cancel            // button on the permission-denied pane
    | BackPressed       // close icon in the top bar
    | FaceRegistered(faceId: string)
    | RegistrationError(error: string)
    | WebViewClosed
    | ErrorExpired      // the error overlay's auto-hide delay ran out
    | SuccessDelayElapsed

  datatype Outcome = Outcome(screen: Screen, notices: seq<Notice>)

  /** The content `when`: the first matching condition wins. */
  function PaneOf(s: Screen): Pane {
    if s.permissionDenied then PermissionDeniedPane
    else if !s.hasCameraPermission then LoadingPane
    else if s.isProcessing then ProcessingPane
    else if s.registrationComplete then SuccessPane(s.successMessage.GetOr(DefaultSuccess))
    else WebViewPane
  }

  /** Each pane is shown exactly when its own condition holds and no earlier one does. */
  lemma PanePriority(s: Screen)
    ensures PaneOf(s).PermissionDeniedPane? <==> s.permissionDenied
    ensures PaneOf(s).LoadingPane? <==> !s.permissionDenied && !s.hasCameraPermission
    ensures PaneOf(s).ProcessingPane? <==> !s.permissionDenied && s.hasCameraPermission && s.isProcessing
    ensures PaneOf(s).SuccessPane? <==>
      !s.permissionDenied && s.hasCameraPermission && !s.isProcessing && s.registrationComplete
    ensures PaneOf(s).WebViewPane? <==>
      !s.permissionDenied && s.hasCameraPermission && !s.isProcessing && !s.registrationComplete
    ensures PaneOf(s).SuccessPane? && s.successMessage.None? ==> PaneOf(s).message == DefaultSuccess
  {
  }

  predicate BackEnabled(s: Screen) {
    !s.isProcessing
  }

  /** Buttons take clicks only on the pane that shows them; the delays only
      run while their state is set. Bridge callbacks are always deliverable:
      a callback posted by the WebView may run after its pane is gone. */
  predicate Enabled(s: Screen, e: Event) {
    match e
    case Retry => PaneOf(s).PermissionDeniedPane?
    case Cancel => PaneOf(s).PermissionDeniedPane?
    case BackPressed => BackEnabled(s)
    case ErrorExpired => s.errorMessage.Some?
    case SuccessDelayElapsed => s.registrationComplete
    case _ => true
  }

  function OnPermissionGranted(s: Screen): (r: Screen)
    ensures r.hasCameraPermission && !r.permissionDenied
    ensures r.(hasCameraPermission := s.hasCameraPermission, permissionDenied := s.permissionDenied) == s
  {
    s.(hasCameraPermission := true, permissionDenied := false)
  }

  function OnPermissionDenied(s: Screen): (r: Screen)
    ensures r.permissionDenied && PaneOf(r) == PermissionDeniedPane
    ensures r.(permissionDenied := s.permissionDenied) == s
  {
    s.(permissionDenied := true)
  }

  function OnRetry(s: Screen): (r: Screen)
    ensures !r.permissionDenied
    ensures r.(permissionDenied := s.permissionDenied) == s
  {
    s.(permissionDenied := false)
  }

  /** `handleFaceRegistered`: ignored while a registration is being
      processed; otherwise it records success, forwards the face id once and
      lowers the processing flag again before returning. */
  function HandleFaceRegistered(s: Screen, faceId: string): (r: Outcome)
    ensures s.isProcessing ==> r == Outcome(s, [])
    ensures !s.isProcessing ==>
      && r.notices == [RegistrationSucceeded(faceId)]
      && r.screen.registrationComplete && !r.screen.isProcessing
      && r.screen.successMessage == Some(RegisteredMessage)
      && r.screen.errorMessage == s.errorMessage
      && r.screen.hasCameraPermission == s.hasCameraPermission
      && r.screen.permissionDenied == s.permissionDenied
  {
    if s.isProcessing then Outcome(s, [])
    else
      var busy := s.(isProcessing := true, successMessage := Some(RegisteredMessage), registrationComplete := true);
      Outcome(busy.(isProcessing := false), [RegistrationSucceeded(faceId)])
  }

  /** `handleRegistrationError`: show the error and forward exactly it. */
  function HandleRegistrationError(s: Screen, error: string): (r: Outcome)
    ensures r.notices == [RegistrationFailed(error)]
    ensures r.screen == s.(errorMessage := Some(error))
  {
    Outcome(s.(errorMessage := Some(error)), [RegistrationFailed(error)])
  }

  function Step(s: Screen, e: Event): Outcome
    requires Enabled(s, e)
  {
    match e
    case PermissionGranted => Outcome(OnPermissionGranted(s), [])
    case PermissionDenied => Outcome(OnPermissionDenied(s), [])
    case Retry => Outcome(OnRetry(s), [])
    case Cancel => Outcome(s, [NavigateBack])
    case BackPressed => Outcome(s, [NavigateBack])
    case FaceRegistered(id) => HandleFaceRegistered(s, id)
    case RegistrationError(error) => HandleRegistrationError(s, error)
    case WebViewClosed => Outcome(s, [NavigateBack])
    case ErrorExpired => Outcome(s.(errorMessage := None), [])
    case SuccessDelayElapsed => Outcome(s, [NavigateBack])
  }

  /** Runs `events` in order, collecting every notice; an event that is not
      enabled in the state it meets (a click on a hidden button) does nothing. */
  function Run(s: Screen, events: seq<Event>): Outcome
    decreases |events|
  {
    if events == [] then Outcome(s, [])
    else if !Enabled(s, events[0]) then Run(s, events[1..])
    else
      var o := Step(s, events[0]);
      var rest := Run(o.screen, events[1..]);
      Outcome(rest.screen, o.notices + rest.notices)
  }

  function CountSuccesses(notices: seq<Notice>): nat {
    if notices == [] then 0
    else (if notices[0].RegistrationSucceeded? then 1 else 0) + CountSuccesses(notices[1..])
  }

  function CountRegistered(events: seq<Event>): nat {
    if events == [] then 0
    else (if events[0].FaceRegistered? then 1 else 0) + CountRegistered(events[1..])
  }

  lemma CountSuccessesAppend(a: seq<Notice>, b: seq<Notice>)
    ensures CountSuccesses(a + b) == CountSuccesses(a) + CountSuccesses(b)
  {
    if a == [] {
      assert a + b == b;
    } else {
      assert (a + b)[1..] == a[1..] + b;
    }
  }

  /** No event leaves the processing flag raised, so the processing pane is
      never shown, the back button is always enabled, and the duplicate guard
      in `handleFaceRegistered` never fires: every face id delivered while
      the screen is up is forwarded, however many arrive. */
  lemma {:induction false} ProcessingNeverObserved(s: Screen, events: seq<Event>)
    requires !s.isProcessing
    ensures var r := Run(s, events);
            && !r.screen.isProcessing && PaneOf(r.screen) != ProcessingPane && BackEnabled(r.screen)
            && CountSuccesses(r.notices) == CountRegistered(events)
    decreases |events|
  {
    if events == [] {
    } else if !Enabled(s, events[0]) {
      ProcessingNeverObserved(s, events[1..]);
    } else {
      var o := Step(s, events[0]);
      assert !o.screen.isProcessing;
      ProcessingNeverObserved(o.screen, events[1..]);
      CountSuccessesAppend(o.notices, Run(o.screen, events[1..]).notices);
    }
  }

  /** Two face ids in a row from a freshly granted screen are both forwarded. */
  lemma DuplicatesForwarded(a: string, b: string)
    ensures Run(Initial, [PermissionGranted, FaceRegistered(a), FaceRegistered(b)]).notices
            == [RegistrationSucceeded(a), RegistrationSucceeded(b)]
  {
    var events := [PermissionGranted, FaceRegistered(a), FaceRegistered(b)];
    var s1 := OnPermissionGranted(Initial);
    var s2 := HandleFaceRegistered(s1, a).screen;
    var s3 := HandleFaceRegistered(s2, b).screen;
    assert events[1..] == [FaceRegistered(a), FaceRegistered(b)];
    assert events[1..][1..] == [FaceRegistered(b)];
    assert events[1..][1..][1..] == [];
    assert Run(s3, []).notices == [];
    assert Run(s2, [FaceRegistered(b)]).notices == [RegistrationSucceeded(b)];
    assert Run(s1, [FaceRegistered(a), FaceRegistered(b)]).notices
        == [RegistrationSucceeded(a), RegistrationSucceeded(b)];
  }
}

=== FILE: scan.dfy ===
/**
 * The script embedded in both web views: the deferred SDK construction, the
 * start guard (`startAuthentication` / `startEnrollment`), the deferred SDK
 * call (`authenticateUser` / `enrollNewUser`), the promise handlers, and
 * `safeCallback`, which checks its flag when it schedules a bridge call but
 * sets it only when the scheduled call has run.
 *
 * Every `setTimeout` is an entry of the pending-timer list; `Fire(i)` runs
 * entry `i`, so every firing order is modelled, the real delays included.
 * An SDK promise is an in-flight request that settles exactly once, in
 * `Resolved` or `Rejected`. What the two pages do differently (the close
 * button, how the success value is read, how an error code becomes a
 * message) is supplied by `AuthPage` and `EnrollPage`.
 */
module Scan {
  import opened Optional
  import Bridge

  /** `faceio`: not yet constructed, constructed, or construction threw. */
  datatype Sdk = Loading | Ready | Broken

  /** A pending `setTimeout`: the 500 ms one that makes the SDK call, or the body of `safeCallback`. */
  datatype Timer = Scan | Deliver(call: Bridge.Call)

  /** The start button's caption: initial, "... Complete", "Try Again". */
  datatype Caption = Begin | Complete | TryAgain

  /** What the status box shows. */
  datatype Status =
    | Initializing
    | InitFailed(message: string)
    | Prompt
    | Scanning
    | NotInitialized
    | Recognised(value: string)
    | Failed(message: string)

  datatype Page = Page(
    kind: Bridge.Kind,
    sdk: Sdk,
    busy: bool,            // isAuthenticating / isRegistering
    done: bool,            // hasAuthenticated / hasRegistered
    startShown: bool,
    startDisabled: bool,
    caption: Caption,
    closeShown: bool,      // the registration page's cancel button
    inFlight: nat,         // SDK promises not yet settled
    timers: seq<Timer>,
    status: Status)

  datatype Event =
    | Initialize(failure: Option<string>)  // the 2 s timer after `load`; Some(message) when `new faceIO` throws
    | ClickStart
    | ClickClose
    | Fire(index: nat)                     // pending timer `index` runs
    | Resolved(value: string)              // the SDK promise resolves; value already read from its result
    | Rejected(message: string)            // the SDK promise rejects; code already mapped to its message

  datatype Reaction = Reaction(page: Page, calls: seq<Bridge.Call>)

  function Initial(kind: Bridge.Kind): Page {
    Page(kind, Loading, false, false, false, false, Begin, false, 0, [], Initializing)
  }

  /** Whether the event can occur at all: a hidden or disabled button takes no
      click, only a pending timer fires, only an in-flight promise settles. */
  predicate Enabled(p: Page, e: Event) {
    match e
    case Initialize(_) => p.sdk.Loading?
    case ClickStart => p.sdk.Ready? && p.startShown && !p.startDisabled
    case ClickClose => p.closeShown
    case Fire(i) => i < |p.timers|
    case Resolved(_) => p.inFlight > 0
    case Rejected(_) => p.inFlight > 0
  }

  /** `safeCallback`: a success call is dropped only if the flag is already
      set; any other call is scheduled as one more pending delivery, after
      those already pending, and nothing but the timers changes. */
  function SafeCallback(p: Page, c: Bridge.Call): (q: Page)
    ensures q.(timers := p.timers) == p
    ensures p.timers <= q.timers
    ensures |q.timers| == |p.timers| + (if p.done && c.Succeed? then 0 else 1)
    ensures CountScans(q.timers) == CountScans(p.timers)
    ensures CountSuccesses(q.timers) == CountSuccesses(p.timers) + (if c.Succeed? && !p.done then 1 else 0)
  {
    CountAppend(p.timers, Deliver(c));
    if p.done && c.Succeed? then p else p.(timers := p.timers + [Deliver(c)])
  }

  /** The start button's handler. */
  function Start(p: Page): Page {
    if p.busy || p.done then p
    else p.(busy := true, startShown := false, closeShown := false, status := Scanning,
            timers := p.timers + [Scan])
  }

  /** The deferred SDK call: issued only when the SDK exists and the flag is clear. */
  function CallSdk(p: Page): Page {
    if p.sdk.Ready? && !p.done then p.(inFlight := p.inFlight + 1)
    else if p.done then p
    else p.(status := NotInitialized)
  }

  /** A pending timer runs: the SDK call, or a bridge call followed, for a
      success call, by setting the flag. */
  function RunTimer(p: Page, t: Timer): Reaction {
    match t
    case Scan => Reaction(CallSdk(p), [])
    case Deliver(c) => Reaction(if c.Succeed? then p.(done := true) else p, [c])
  }

  /** The `.then` handler. */
  function OnResolved(p: Page, value: string): Page {
    if p.done then p
    else SafeCallback(p.(status := Recognised(value), busy := false, startDisabled := true, caption := Complete),
                      Bridge.Succeed(value))
  }

  /** The `.catch` handler: re-arms the start button (and the cancel button on the registration page). */
  function OnRejected(p: Page, message: string): Page {
    if p.done then p
    else SafeCallback(p.(status := Failed(message), busy := false, caption := TryAgain,
                         startShown := true, closeShown := p.kind.Registration?),
                      Bridge.Fail(message))
  }

  function Remove(ts: seq<Timer>, i: nat): (r: seq<Timer>)
    requires i < |ts|
    ensures |r| == |ts| - 1
  {
    ts[..i] + ts[i + 1..]
  }

  /** One event; an event that cannot occur changes nothing. */
  function Step(p: Page, e: Event): (r: Reaction)
    ensures r.page.kind == p.kind
    ensures p.startDisabled ==> r.page.startDisabled
  {
    if !Enabled(p, e) then Reaction(p, [])
    else match e
      case Initialize(None) =>
        Reaction(p.(sdk := Ready, status := Prompt, startShown := true,
                    closeShown := p.kind.Registration?), [])
      case Initialize(Some(m)) =>
        Reaction(SafeCallback(p.(sdk := Broken, status := InitFailed("Failed to initialize Face.io: " + m)),
                              Bridge.Fail("Initialization failed: " + m)), [])
      case ClickStart => Reaction(Start(p), [])
      case ClickClose => Reaction(SafeCallback(p, Bridge.Close), [])
      case Fire(i) => RunTimer(p.(timers := Remove(p.timers, i)), p.timers[i])
      case Resolved(v) => Reaction(OnResolved(p.(inFlight := p.inFlight - 1), v), [])
      case Rejected(m) => Reaction(OnRejected(p.(inFlight := p.inFlight - 1), m), [])
  }

  /** A sequence of events, collecting the bridge calls in the order they are made. */
  function Run(p: Page, events: seq<Event>): (r: Reaction)
    ensures r.page.kind == p.kind
    decreases |events|
  {
    if events == [] then Reaction(p, [])
    else
      var first := Step(p, events[0]);
      var rest := Run(first.page, events[1..]);
      Reaction(rest.page, first.calls + rest.calls)
  }

  // ---------------------------------------------------------------------
  // The script's own at-most-once argument.

  function CountScans(ts: seq<Timer>): nat {
    if ts == [] then 0 else (if ts[0].Scan? then 1 else 0) + CountScans(ts[1..])
  }

  function CountSuccesses(ts: seq<Timer>): nat {
    if ts == [] then 0
    else (if ts[0].Deliver? && ts[0].call.Succeed? then 1 else 0) + CountSuccesses(ts[1..])
  }

  lemma {:induction false} CountAppend(ts: seq<Timer>, t: Timer)
    ensures CountScans(ts + [t]) == CountScans(ts) + (if t.Scan? then 1 else 0)
    ensures CountSuccesses(ts + [t]) == CountSuccesses(ts) + (if t.Deliver? && t.call.Succeed? then 1 else 0)
  {
    if ts != [] {
      assert (ts + [t])[1..] == ts[1..] + [t];
      CountAppend(ts[1..], t);
    }
  }

  lemma {:induction false} CountRemove(ts: seq<Timer>, i: nat)
    requires i < |ts|
    ensures CountScans(ts) == CountScans(Remove(ts, i)) + (if ts[i].Scan? then 1 else 0)
    ensures CountSuccesses(ts) == CountSuccesses(Remove(ts, i)) + (if ts[i].Deliver? && ts[i].call.Succeed? then 1 else 0)
  {
    if i > 0 {
      assert Remove(ts, i)[1..] == Remove(ts[1..], i - 1);
      CountRemove(ts[1..], i - 1);
    } else {
      assert Remove(ts, 0) == ts[1..];
    }
  }

  predicate Clickable(p: Page) {
    p.sdk.Ready? && p.startShown && !p.startDisabled
  }

  /** Everything that can still lead to a success call: a clickable start
      button, a pending SDK call, an in-flight promise, a scheduled success
      delivery; plus the flag, set once the success call was made. */
  function Budget(p: Page): nat {
    CountScans(p.timers) + p.inFlight + CountSuccesses(p.timers)
    + (if Clickable(p) then 1 else 0) + (if p.done then 1 else 0)
  }

  ghost predicate Inv(p: Page) {
    && Budget(p) <= 1
    && (!p.sdk.Ready? ==> Budget(p) == 0 && !p.startShown && !p.startDisabled && !p.busy)
    && (p.busy ==> !p.startShown)
    && (p.startDisabled ==> p.done || CountSuccesses(p.timers) >= 1)
    && (p.kind.Authentication? ==> !p.closeShown)
  }

  lemma InitialInv(kind: Bridge.Kind)
    ensures Inv(Initial(kind))
  {
  }

  /** A reaction keeps the invariant, never clears the flag, and makes a
      success call only when it sets the flag. */
  ghost predicate Keeps(p: Page, r: Reaction) {
    && Inv(r.page)
    && (p.done ==> r.page.done)
    && |Bridge.SucceedValues(r.calls)| <= 1
    && (Bridge.SucceedValues(r.calls) != [] ==> !p.done && r.page.done)
  }

  lemma FirePreserves(p: Page, i: nat)
    requires Inv(p) && i < |p.timers|
    ensures Keeps(p, Step(p, Fire(i)))
  {
    CountRemove(p.timers, i);
    var c := Step(p, Fire(i)).calls;
    if p.timers[i].Deliver? {
      assert c == [p.timers[i].call];
      assert Bridge.SucceedValues(c) == (if p.timers[i].call.Succeed? then [p.timers[i].call.value] else []);
    }
  }

  lemma SettlePreserves(p: Page, e: Event)
    requires Inv(p) && p.inFlight > 0 && (e.Resolved? || e.Rejected?)
    ensures Keeps(p, Step(p, e))
  {
  }

  lemma StepPreserves(p: Page, e: Event)
    requires Inv(p)
    ensures Keeps(p, Step(p, e))
  {
    if Enabled(p, e) {
      match e
      case Initialize(None) =>
      case Initialize(Some(m)) =>
      case ClickStart =>
        CountAppend(p.timers, Scan);
      case ClickClose =>
      case Fire(i) =>
        FirePreserves(p, i);
      case Resolved(v) =>
        SettlePreserves(p, e);
      case Rejected(m) =>
        SettlePreserves(p, e);
    }
  }

  /**
   * The script on its own makes at most one success call over any sequence
   * of events, and none once its flag is set: the start button is hidden
   * while a scan is running and disabled once a result arrives, and each SDK
   * promise settles once.
   */
  lemma {:induction false} ScriptAtMostOnce(p: Page, events: seq<Event>)
    requires Inv(p)
    ensures Inv(Run(p, events).page)
    ensures |Bridge.SucceedValues(Run(p, events).calls)| + (if p.done then 1 else 0) <= 1
    decreases |events|
  {
    if events != [] {
      var first := Step(p, events[0]);
      StepPreserves(p, events[0]);
      ScriptAtMostOnce(first.page, events[1..]);
      Bridge.SucceedValuesAppend(first.calls, Run(first.page, events[1..]).calls);
    }
  }

  // ---------------------------------------------------------------------
  // The start guard, retry and ignore-after-success rules.

  /** A click on an armed start button starts one scan and hides the buttons,
      so a second click does nothing until that scan settles. */
  lemma {:induction false} StartIsOneShot(p: Page)
    requires Inv(p) && Clickable(p)
    ensures var q := Step(p, ClickStart).page;
            && q.busy && !q.startShown && !q.closeShown
            && q.timers == p.timers + [Scan]
            && Step(q, ClickStart) == Reaction(q, [])
  {
  }

  /** A rejection before any success clears the busy flag and re-arms the
      start button (and the cancel button on the registration page), so the
      user can try again, and posts the message as an error call. */
  lemma RetryReArms(p: Page, message: string)
    requires Inv(p) && !p.done && p.inFlight > 0
    ensures var q := Step(p, Rejected(message)).page;
            && !q.busy && Clickable(q) && q.closeShown == p.kind.Registration?
            && q.status == Failed(message)
            && q.timers == p.timers + [Deliver(Bridge.Fail(message))]
            && Step(q, ClickStart).page.busy
  {
  }

  /** A resolution before any success disables the start button (for good,
      by `StartStaysDisabled`) and schedules exactly one success delivery
      carrying the value. */
  lemma SuccessDisablesStart(p: Page, value: string)
    requires !p.done && p.inFlight > 0
    ensures var q := Step(p, Resolved(value)).page;
            && q.startDisabled && !q.busy && !Clickable(q) && q.caption == Complete
            && q.timers == p.timers + [Deliver(Bridge.Succeed(value))]
  {
  }

  /** Once disabled, the start button is never enabled again: no handler
      clears `disabled`. */
  lemma {:induction false} StartStaysDisabled(p: Page, events: seq<Event>)
    requires p.startDisabled
    ensures Run(p, events).page.startDisabled
    decreases |events|
  {
    if events != [] {
      var first := Step(p, events[0]);
      StartStaysDisabled(first.page, events[1..]);
      assert Run(p, events).page == Run(first.page, events[1..]).page;
    }
  }

  /** Once the flag is set, results are ignored apart from settling the
      promise, and neither a click nor the deferred SDK call does anything. */
  lemma IgnoredAfterSuccess(p: Page, value: string, message: string)
    requires p.done && p.inFlight > 0
    ensures Step(p, Resolved(value)) == Reaction(p.(inFlight := p.inFlight - 1), [])
    ensures Step(p, Rejected(message)) == Reaction(p.(inFlight := p.inFlight - 1), [])
    ensures Step(p, ClickStart).page == p
    ensures CallSdk(p) == p
  {
  }

  /**
   * `safeCallback` checks its flag when it schedules and the flag is set only
   * when the delivery runs: two success deliveries scheduled back to back are
   * both kept and both reach the bridge. The page's own flow never schedules
   * the second one (such a page breaks the invariant); the bridge's flag
   * would drop it.
   */
  lemma {:induction false} LateFlagAdmitsDuplicate(p: Page, a: string, b: string)
    requires !p.done && p.timers == []
    ensures var q := SafeCallback(SafeCallback(p, Bridge.Succeed(a)), Bridge.Succeed(b));
            && q.timers == [Deliver(Bridge.Succeed(a)), Deliver(Bridge.Succeed(b))]
            && Run(q, [Fire(0), Fire(0)]).calls == [Bridge.Succeed(a), Bridge.Succeed(b)]
            && !Inv(q)
            && Bridge.Run(Bridge.Fresh(p.kind), Run(q, [Fire(0), Fire(0)]).calls).posted == [Bridge.Success(a)]
  {
    var q := SafeCallback(SafeCallback(p, Bridge.Succeed(a)), Bridge.Succeed(b));
    var r1 := Step(q, Fire(0));
    assert Remove(q.timers, 0) == [Deliver(Bridge.Succeed(b))];
    assert r1.calls == [Bridge.Succeed(a)];
    assert Remove(r1.page.timers, 0) == [];
    assert q.timers[1..] == [Deliver(Bridge.Succeed(b))];
    assert q.timers[1..][1..] == [];
    assert CountSuccesses(q.timers[1..]) == 1;
    assert CountSuccesses(q.timers) == 2;
    var calls := [Bridge.Succeed(a), Bridge.Succeed(b)];
    var g := Bridge.Receive(Bridge.Fresh(p.kind), calls[0]).guard;
    assert calls[1..] == [Bridge.Succeed(b)];
    assert Bridge.Run(g, calls[1..]).posted == [];
  }
}

=== FILE: session.dfy ===
/**
 * One web view mount: the page's script feeding the native interface, which
 * posts closures to the host. A script call reaches the interface only when
 * the WebView's Java bridge can bind it to a method (see `Binds`); any other
 * call is dropped before it posts anything.
 */
module Session {
  import opened Optional
  import Bridge
  import Scan
  import AuthPage
  import EnrollPage

  /** How the page's cancel handler calls `onClose`. `WithReason` is the page
      as written: `closeRegistration` goes through `safeCallback`, which always
      passes one argument (`'user_closed'`). `WithoutArguments` is a cancel that
      calls `onClose()` with none, as the interface declares it. */
  datatype CloseCall = WithReason | WithoutArguments

  datatype System = System(page: Scan.Page, guard: Bridge.Guard, posted: seq<Bridge.Callback>, close: CloseCall)

  function Mount(kind: Bridge.Kind, close: CloseCall): System {
    System(Scan.Initial(kind), Bridge.Fresh(kind), [], close)
  }

  /** The number of arguments the page passes with a call. */
  function Arguments(close: CloseCall, c: Bridge.Call): nat {
    if c.Close? && close.WithoutArguments? then 0 else 1
  }

  /**
   * Whether a script call reaches the interface object. `safeCallback` first
   * checks that `AndroidInterface[callbackName]` exists. The WebView's Java
   * bridge then binds the call to a method of that name with as many
   * parameters as the call has arguments; with no such method the call
   * throws in the script, and `safeCallback`'s `catch` only logs it.
   */
  predicate Binds(kind: Bridge.Kind, close: CloseCall, c: Bridge.Call) {
    Bridge.Exposes(kind, c) && Arguments(close, c) == Bridge.Parameters(c)
  }

  /** The calls that reach the interface, in order. */
  function Available(kind: Bridge.Kind, close: CloseCall, calls: seq<Bridge.Call>): (r: seq<Bridge.Call>)
    ensures Bridge.AllExposed(kind, r)
    ensures forall i :: 0 <= i < |r| ==> Binds(kind, close, r[i])
    decreases |calls|
  {
    if calls == [] then []
    else
      var rest := Available(kind, close, calls[1..]);
      if Binds(kind, close, calls[0]) then [calls[0]] + rest else rest
  }

  lemma {:induction false} AvailableAppend(kind: Bridge.Kind, close: CloseCall, a: seq<Bridge.Call>, b: seq<Bridge.Call>)
    ensures Available(kind, close, a + b) == Available(kind, close, a) + Available(kind, close, b)
  {
    if a != [] {
      assert (a + b)[0] == a[0] && (a + b)[1..] == a[1..] + b;
      AvailableAppend(kind, close, a[1..], b);
    } else {
      assert a + b == b;
    }
  }

  lemma {:induction false} AvailableSucceedValues(kind: Bridge.Kind, close: CloseCall, calls: seq<Bridge.Call>)
    ensures Bridge.SucceedValues(Available(kind, close, calls)) == Bridge.SucceedValues(calls)
  {
    if calls != [] {
      AvailableSucceedValues(kind, close, calls[1..]);
    }
  }

  predicate Wired(s: System) {
    s.page.kind == s.guard.kind
  }

  /** One page event: the page reacts, its calls go through the interface in order. */
  function Step(s: System, e: Scan.Event): (r: System)
    requires Wired(s)
    ensures Wired(r)
  {
    var reaction := Scan.Step(s.page, e);
    var delivered := Bridge.Run(s.guard, Available(s.page.kind, s.close, reaction.calls));
    System(reaction.page, delivered.guard, s.posted + delivered.posted, s.close)
  }

  function Run(s: System, events: seq<Scan.Event>): (r: System)
    requires Wired(s)
    ensures Wired(r)
    decreases |events|
  {
    if events == [] then s else Run(Step(s, events[0]), events[1..])
  }

  /** One mount step, in terms of the page's reaction and the interface's run. */
  lemma StepFactors(s: System, e: Scan.Event)
    requires Wired(s)
    ensures var reaction := Scan.Step(s.page, e);
            var delivered := Bridge.Run(s.guard, Available(s.page.kind, s.close, reaction.calls));
            && Step(s, e).page == reaction.page
            && Step(s, e).guard == delivered.guard
            && Step(s, e).posted == s.posted + delivered.posted
            && Step(s, e).close == s.close
  {
  }

  /** The page evolves as if the interface were not there. */
  lemma {:induction false} RunPage(s: System, events: seq<Scan.Event>)
    requires Wired(s)
    ensures Run(s, events).page == Scan.Run(s.page, events).page
    decreases |events|
  {
    if events != [] {
      StepFactors(s, events[0]);
      RunPage(Step(s, events[0]), events[1..]);
    }
  }

  /** One step of the mount, against the page's and the interface's own runs. */
  lemma StepUnfold(s: System, events: seq<Scan.Event>)
    requires Wired(s) && events != []
    ensures var first := Scan.Step(s.page, events[0]);
            var rest := Scan.Run(first.page, events[1..]);
            var a := Available(s.page.kind, s.close, first.calls);
            var s' := Step(s, events[0]);
            && Run(s, events) == Run(s', events[1..])
            && Available(s.page.kind, s.close, Scan.Run(s.page, events).calls) == a + Available(s.page.kind, s.close, rest.calls)
            && s'.page == first.page && s'.page.kind == s.page.kind && s'.close == s.close
            && s'.guard == Bridge.Run(s.guard, a).guard
            && s'.posted == s.posted + Bridge.Run(s.guard, a).posted
  {
    var first := Scan.Step(s.page, events[0]);
    var rest := Scan.Run(first.page, events[1..]);
    StepFactors(s, events[0]);
    assert Scan.Run(s.page, events).calls == first.calls + rest.calls;
    AvailableAppend(s.page.kind, s.close, first.calls, rest.calls);
  }

  /** The interface's flag after the mount's run is its flag after all of
      the page's calls. */
  lemma {:induction false} RunGuard(s: System, events: seq<Scan.Event>)
    requires Wired(s)
    ensures Run(s, events).guard
            == Bridge.Run(s.guard, Available(s.page.kind, s.close, Scan.Run(s.page, events).calls)).guard
    decreases |events|
  {
    if events != [] {
      var first := Scan.Step(s.page, events[0]);
      var rest := Scan.Run(first.page, events[1..]);
      var a := Available(s.page.kind, s.close, first.calls);
      var b := Available(s.page.kind, s.close, rest.calls);
      StepUnfold(s, events);
      Bridge.RunAppend(s.guard, a, b);
      RunGuard(Step(s, events[0]), events[1..]);
    }
  }

  /** Running the mount is running the page and then feeding all of its
      calls to the interface at once. */
  lemma {:induction false} RunFactors(s: System, events: seq<Scan.Event>)
    requires Wired(s)
    ensures Run(s, events).posted
            == s.posted + Bridge.Run(s.guard, Available(s.page.kind, s.close, Scan.Run(s.page, events).calls)).posted
    decreases |events|
  {
    if events != [] {
      var first := Scan.Step(s.page, events[0]);
      var rest := Scan.Run(first.page, events[1..]);
      var a := Available(s.page.kind, s.close, first.calls);
      var b := Available(s.page.kind, s.close, rest.calls);
      var s' := Step(s, events[0]);
      StepUnfold(s, events);
      assert Scan.Run(s'.page, events[1..]) == rest;
      RunFactors(s', events[1..]);
      PostedAppend(s.posted, s.guard, a, b, Run(s', events[1..]).posted);
    }
  }

  /** The bookkeeping step of `RunFactors`, kept apart from the page's definitions. */
  lemma PostedAppend(before: seq<Bridge.Callback>, g: Bridge.Guard, a: seq<Bridge.Call>, b: seq<Bridge.Call>,
                     after: seq<Bridge.Callback>)
    requires Bridge.AllExposed(g.kind, a) && Bridge.AllExposed(g.kind, b)
    requires after == (before + Bridge.Run(g, a).posted) + Bridge.Run(Bridge.Run(g, a).guard, b).posted
    ensures after == before + Bridge.Run(g, a + b).posted
  {
    Bridge.RunAppend(g, a, b);
    var x := Bridge.Run(g, a).posted;
    var y := Bridge.Run(Bridge.Run(g, a).guard, b).posted;
    Associative(before, x, y);
  }

  lemma Associative(u: seq<Bridge.Callback>, v: seq<Bridge.Callback>, w: seq<Bridge.Callback>)
    ensures (u + v) + w == u + (v + w)
  {
  }

  /**
   * However the user, the timers and the SDK interleave, the host receives
   * at most one success closure per mount, and, because the page itself
   * makes at most one success call, the interface's flag never has to drop
   * one: the host gets exactly the closures the calls that reach the
   * interface ask for.
   */
  lemma HostGetsAtMostOneSuccess(kind: Bridge.Kind, close: CloseCall, events: seq<Scan.Event>)
    ensures |Bridge.Successes(Run(Mount(kind, close), events).posted)| <= 1
    ensures Run(Mount(kind, close), events).posted
            == Bridge.Unguarded(Available(kind, close, Scan.Run(Scan.Initial(kind), events).calls))
  {
    var s := Mount(kind, close);
    var calls := Available(kind, close, Scan.Run(s.page, events).calls);
    RunFactors(s, events);
    RunPage(s, events);
    Bridge.AtMostOneSuccess(kind, calls);
    Scan.InitialInv(kind);
    Scan.ScriptAtMostOnce(s.page, events);
    AvailableSucceedValues(kind, close, Scan.Run(s.page, events).calls);
    Bridge.GuardTransparent(s.guard, calls);
    assert Run(s, events).posted == Bridge.Run(s.guard, calls).posted;
  }

  /** As written, the enrolment page's cancel never reaches the host: its
      one-argument `onClose` call binds to no method, so however the page is
      used, no close closure is ever posted. */
  lemma CancelNeverReachesHost(kind: Bridge.Kind, events: seq<Scan.Event>)
    ensures Bridge.Closed !in Run(Mount(kind, WithReason), events).posted
  {
    var calls := Available(kind, WithReason, Scan.Run(Scan.Initial(kind), events).calls);
    HostGetsAtMostOneSuccess(kind, WithReason, events);
    assert forall i :: 0 <= i < |calls| ==> !calls[i].Close? by {
      forall i | 0 <= i < |calls| ensures !calls[i].Close? {
        assert Binds(kind, WithReason, calls[i]);
      }
    }
    Bridge.UnguardedWithoutClose(calls);
  }

  // ---------------------------------------------------------------------
  // Scenarios.

  /** Running a sequence whose first event is `e`. */
  lemma RunCons(s: System, e: Scan.Event, rest: seq<Scan.Event>)
    requires Wired(s)
    ensures Run(s, [e] + rest) == Run(Step(s, e), rest)
  {
    assert ([e] + rest)[0] == e && ([e] + rest)[1..] == rest;
  }

  /** Authentication, up to the scan: the page is ready, the start click
      schedules the SDK call, and the call leaves one promise in flight. */
  lemma ScanInFlight() returns (s3: System)
    ensures s3 == Step(Step(Step(Mount(Bridge.Authentication, WithReason), Scan.Initialize(None)), Scan.ClickStart), Scan.Fire(0))
    ensures Wired(s3) && s3.posted == [] && !s3.guard.fired
    ensures s3.page.inFlight == 1 && s3.page.timers == [] && !s3.page.done && s3.page.sdk.Ready?
    ensures !s3.page.closeShown
  {
    var s1 := Step(Mount(Bridge.Authentication, WithReason), Scan.Initialize(None));
    assert s1.page.timers == [] && s1.posted == [] && Scan.Clickable(s1.page);
    var s2 := Step(s1, Scan.ClickStart);
    assert s2.page.timers == [Scan.Scan] && s2.posted == [];
    s3 := Step(s2, Scan.Fire(0));
    assert Scan.Remove(s2.page.timers, 0) == [];
  }

  /** Authentication: the SDK resolves with a payload holding roll number
      21BCE1234; the host's success closure receives it, once. */
  lemma AuthenticatedScenario()
    ensures var events := [Scan.Initialize(None), Scan.ClickStart, Scan.Fire(0),
                           AuthPage.Authenticated(Some(AuthPage.Payload("21BCE1234"))), Scan.Fire(0)];
            Run(Mount(Bridge.Authentication, WithReason), events).posted == [Bridge.Success("21BCE1234")]
  {
    var s0 := Mount(Bridge.Authentication, WithReason);
    var s3 := ScanInFlight();
    var e3 := AuthPage.Authenticated(Some(AuthPage.Payload("21BCE1234")));
    assert e3 == Scan.Resolved("21BCE1234");
    var s4 := Step(s3, e3);
    assert s4.page.timers == [Scan.Deliver(Bridge.Succeed("21BCE1234"))] && s4.posted == [];
    var s5 := Step(s4, Scan.Fire(0));
    assert s5.posted == [Bridge.Success("21BCE1234")];
    RunCons(s4, Scan.Fire(0), []);
    RunCons(s3, e3, [Scan.Fire(0)]);
    var s2 := Step(Step(s0, Scan.Initialize(None)), Scan.ClickStart);
    RunCons(s2, Scan.Fire(0), [e3, Scan.Fire(0)]);
    RunCons(Step(s0, Scan.Initialize(None)), Scan.ClickStart, [Scan.Fire(0), e3, Scan.Fire(0)]);
    RunCons(s0, Scan.Initialize(None), [Scan.ClickStart, Scan.Fire(0), e3, Scan.Fire(0)]);
  }

  /** Authentication: the SDK rejects (with "no faces", say, whose message
      is `AuthPage.NoFacesMessage`); the host's error closure receives the
      message and the start button is armed again. */
  lemma RejectionScenario(m: string)
    ensures var events := [Scan.Initialize(None), Scan.ClickStart, Scan.Fire(0), Scan.Rejected(m), Scan.Fire(0)];
            var s := Run(Mount(Bridge.Authentication, WithReason), events);
            && s.posted == [Bridge.Error(m)]
            && Scan.Clickable(s.page)
  {
    var s0 := Mount(Bridge.Authentication, WithReason);
    var s3 := ScanInFlight();
    var e3 := Scan.Rejected(m);
    var s4 := Step(s3, e3);
    assert s4.page.timers == [Scan.Deliver(Bridge.Fail(m))] && s4.posted == [] && Scan.Clickable(s4.page);
    var s5 := Step(s4, Scan.Fire(0));
    assert Scan.Step(s4.page, Scan.Fire(0)).calls == [Bridge.Fail(m)];
    assert Available(Bridge.Authentication, WithReason, [Bridge.Fail(m)]) == [Bridge.Fail(m)];
    assert Bridge.Run(s4.guard, [Bridge.Fail(m)]).posted == [Bridge.Error(m)];
    assert s5.posted == [Bridge.Error(m)] && Scan.Clickable(s5.page);
    RunCons(s4, Scan.Fire(0), []);
    RunCons(s3, e3, [Scan.Fire(0)]);
    var s2 := Step(Step(s0, Scan.Initialize(None)), Scan.ClickStart);
    RunCons(s2, Scan.Fire(0), [e3, Scan.Fire(0)]);
    RunCons(Step(s0, Scan.Initialize(None)), Scan.ClickStart, [Scan.Fire(0), e3, Scan.Fire(0)]);
    RunCons(s0, Scan.Initialize(None), [Scan.ClickStart, Scan.Fire(0), e3, Scan.Fire(0)]);
  }

  /** Registration: the bridge receives the facial id F-998 twice (a simulated
      double fire); the host's success closure runs once. */
  lemma DoubleFireScenario()
    ensures Bridge.Run(Bridge.Fresh(Bridge.Registration),
                       [Bridge.Succeed("F-998"), Bridge.Succeed("F-998")]).posted
            == [Bridge.Success("F-998")]
  {
  }

  /** Registration, as written: a cancel with no prior activity schedules
      the `onClose` call, and when it runs nothing reaches the host. */
  lemma CancelScenario()
    ensures var events := [Scan.Initialize(None), Scan.ClickClose, Scan.Fire(0)];
            var s := Run(Mount(Bridge.Registration, WithReason), events);
            && s.posted == [] && s.page.timers == []
  {
    var s0 := Mount(Bridge.Registration, WithReason);
    var s1 := Step(s0, Scan.Initialize(None));
    assert s1.page.closeShown && s1.page.timers == [] && s1.posted == [];
    var s2 := Step(s1, Scan.ClickClose);
    assert s2.page.timers == [Scan.Deliver(Bridge.Close)] && s2.posted == [];
    var s3 := Step(s2, Scan.Fire(0));
    assert Available(Bridge.Registration, WithReason, [Bridge.Close]) == [];
    assert s3.posted == [] && s3.page.timers == [];
    RunCons(s2, Scan.Fire(0), []);
    RunCons(s1, Scan.ClickClose, [Scan.Fire(0)]);
    RunCons(s0, Scan.Initialize(None), [Scan.ClickClose, Scan.Fire(0)]);
  }

  /** Registration, with `onClose()` called without arguments: the same
      cancel reaches the host's close closure once. */
  lemma IntendedCancelScenario()
    ensures var events := [Scan.Initialize(None), Scan.ClickClose, Scan.Fire(0)];
            Run(Mount(Bridge.Registration, WithoutArguments), events).posted == [Bridge.Closed]
  {
    var s0 := Mount(Bridge.Registration, WithoutArguments);
    var s1 := Step(s0, Scan.Initialize(None));
    assert s1.page.closeShown && s1.page.timers == [] && s1.posted == [];
    var s2 := Step(s1, Scan.ClickClose);
    assert s2.page.timers == [Scan.Deliver(Bridge.Close)] && s2.posted == [];
    var s3 := Step(s2, Scan.Fire(0));
    assert Available(Bridge.Registration, WithoutArguments, [Bridge.Close]) == [Bridge.Close];
    assert s3.posted == [Bridge.Closed];
    RunCons(s2, Scan.Fire(0), []);
    RunCons(s1, Scan.ClickClose, [Scan.Fire(0)]);
    RunCons(s0, Scan.Initialize(None), [Scan.ClickClose, Scan.Fire(0)]);
  }
}

=== FILE: text.dfy ===
/**
 * The Kotlin string helpers the profile logic relies on: `isBlank`, `trim`
 * and `uppercase`, over an ASCII approximation of Kotlin's character classes.
 */
module Text {

  /** Kotlin's `Char.isWhitespace`, restricted to ASCII: space, the C0 controls
      TAB, LF, VT, FF, CR, and the information separators FS, GS, RS, US. */
  predicate IsWhitespace(c: char) {
    c == ' ' || c == '\t' || c == '\n' || c == '\U{000B}' || c == '\U{000C}' || c == '\r'
    || ('\U{001C}' <= c <= '\U{001F}')
  }

  /** Kotlin's `isBlank`: empty, or whitespace only. */
  predicate IsBlank(s: string) {
    forall i :: 0 <= i < |s| ==> IsWhitespace(s[i])
  }

  /** Drops leading whitespace: what is removed is blank and what is left starts
      with a non-whitespace character. */
  function TrimStart(s: string): (r: string)
    ensures |r| <= |s| && r == s[|s| - |r|..]
    ensures IsBlank(s[..|s| - |r|])
    ensures r == [] || !IsWhitespace(r[0])
  {
    if |s| > 0 && IsWhitespace(s[0]) then
      var t := TrimStart(s[1..]);
      assert s[..|s| - |t|] == [s[0]] + s[1..][..|s| - 1 - |t|];
      t
    else
      s
  }

  /** Drops trailing whitespace: what is removed is blank and what is left ends
      with a non-whitespace character. */
  function TrimEnd(s: string): (r: string)
    ensures |r| <= |s| && r == s[..|r|]
    ensures IsBlank(s[|r|..])
    ensures r == [] || !IsWhitespace(r[|r| - 1])
  {
    if |s| > 0 && IsWhitespace(s[|s| - 1]) then
      var t := TrimEnd(s[..|s| - 1]);
      assert s[|t|..] == s[..|s| - 1][|t|..] + [s[|s| - 1]];
      t
    else
      s
  }

  /** Kotlin's `trim()`: the longest infix of `s` that neither starts nor ends
      with whitespace, everything around it being whitespace. */
  function Trim(s: string): (r: string)
    ensures |r| <= |s|
    ensures IsBlank(s) <==> r == []
    ensures r != [] ==> !IsWhitespace(r[0]) && !IsWhitespace(r[|r| - 1])
  {
    TrimPieces(s);
    TrimEnd(TrimStart(s))
  }

  /** Trimming the front and then the back leaves nothing exactly when the
      whole string was blank, and otherwise keeps a non-whitespace first character. */
  lemma TrimPieces(s: string)
    ensures IsBlank(s) <==> TrimEnd(TrimStart(s)) == []
    ensures TrimEnd(TrimStart(s)) != [] ==> TrimEnd(TrimStart(s))[0] == TrimStart(s)[0]
  {
    var u := TrimStart(s);
    var r := TrimEnd(u);
    var k := |s| - |u|;
    if r == [] {
      assert u[|r|..] == u;
      assert IsBlank(u);
      assert s[k..] == u;
      BlankSplit(s, k);
    } else {
      assert r[0] == u[0] == s[k];
    }
  }

  lemma BlankSplit(s: string, k: nat)
    requires k <= |s| && IsBlank(s[..k]) && IsBlank(s[k..])
    ensures IsBlank(s)
  {
    forall i | 0 <= i < |s|
      ensures IsWhitespace(s[i])
    {
      if i < k {
        assert s[i] == s[..k][i];
      } else {
        assert s[i] == s[k..][i - k];
      }
    }
  }

  /** Trimming twice is trimming once. */
  lemma {:induction false} TrimIdempotent(s: string)
    ensures Trim(Trim(s)) == Trim(s)
  {
    var t := Trim(s);
    if t != [] {
      assert TrimStart(t) == t;
      assert TrimEnd(t) == t;
    }
  }

  /** Leading whitespace in front of a string that does not start with
      whitespace is exactly what `TrimStart` removes. */
  lemma {:induction false} TrimStartPadding(w: string, x: string)
    requires IsBlank(w) && (x == [] || !IsWhitespace(x[0]))
    ensures TrimStart(w + x) == x
    decreases |w|
  {
    if w == [] {
      assert w + x == x;
    } else {
      assert (w + x)[0] == w[0];
      assert (w + x)[1..] == w[1..] + x;
      TrimStartPadding(w[1..], x);
    }
  }

  /** Trailing whitespace behind a string that does not end with whitespace
      is exactly what `TrimEnd` removes. */
  lemma {:induction false} TrimEndPadding(x: string, v: string)
    requires IsBlank(v) && (x == [] || !IsWhitespace(x[|x| - 1]))
    ensures TrimEnd(x + v) == x
    decreases |v|
  {
    if v == [] {
      assert x + v == x;
    } else {
      var n := |x + v|;
      assert (x + v)[n - 1] == v[|v| - 1];
      assert (x + v)[..n - 1] == x + v[..|v| - 1];
      TrimEndPadding(x, v[..|v| - 1]);
    }
  }

  /** `Trim` inverts padding: a string with no whitespace at either end comes
      back unchanged from any blank padding on both sides. */
  lemma TrimDropsPadding(w: string, x: string, v: string)
    requires IsBlank(w) && IsBlank(v)
    requires x != [] && !IsWhitespace(x[0]) && !IsWhitespace(x[|x| - 1])
    ensures Trim(w + x + v) == x
  {
    assert w + x + v == w + (x + v);
    assert (x + v)[0] == x[0];
    TrimStartPadding(w, x + v);
    TrimEndPadding(x, v);
  }

  /** Kotlin's `Char.uppercaseChar()` on ASCII: a..z become A..Z, everything else stays. */
  function UpperChar(c: char): char {
    if 'a' <= c <= 'z' then (c as int - 32) as char else c
  }

  /** Kotlin's `uppercase()`, character by character. */
  function Upper(s: string): (r: string)
    ensures |r| == |s|
    ensures forall i :: 0 <= i < |s| ==> r[i] == UpperChar(s[i])
  {
    seq(|s|, i requires 0 <= i < |s| => UpperChar(s[i]))
  }

  /** Upper-casing keeps whitespace where it was, so it commutes with trimming,
      and is idempotent. */
  lemma UpperKeepsWhitespace(c: char)
    ensures IsWhitespace(UpperChar(c)) <==> IsWhitespace(c)
    ensures UpperChar(UpperChar(c)) == UpperChar(c)
  {
  }

  /** A trimmed and upper-cased string is already trimmed and upper-cased. */
  lemma {:induction false} TrimUpperStable(s: string)
    ensures Trim(Upper(Trim(s))) == Upper(Trim(s))
    ensures Upper(Upper(Trim(s))) == Upper(Trim(s))
    ensures IsBlank(Upper(Trim(s))) <==> IsBlank(s)
  {
    var t := Trim(s);
    var u := Upper(t);
    if t != [] {
      UpperKeepsWhitespace(t[0]);
      UpperKeepsWhitespace(t[|t| - 1]);
      assert TrimStart(u) == u;
      assert TrimEnd(u) == u;
      assert !IsWhitespace(u[0]);
    }
    forall i | 0 <= i < |u|
      ensures Upper(u)[i] == u[i]
    {
      UpperKeepsWhitespace(t[i]);
    }
  }
}
